=== FILE: README.md ===
# oslo.service looping calls and thread groups, in Dafny

This project models the two sequential cores of oslo.service:

* **The looping-call engine** (`oslo_service/loopingcall.py`). It covers:
  * `LoopingCallBase`, with its run-only-one guard, its running flag, `_start`, `stop` and `_on_done`;
  * the body of `_run_loop`;
  * the idle-time rules of `FixedIntervalLoopingCall` and `DynamicLoopingCall`;
  * `_safe_wrapper` and `LoopingCallDone`;
  * `RetryDecorator`, which runs the wrapped function in a dynamic looping call.
* **The thread group** (`oslo_service/threadgroup.py`). It covers:
  * the thread wrapper and its completion link;
  * `add_thread`, `thread_done`, `add_timer`, `add_dynamic_timer` and `timer_done`;
  * `stop_timers`, `stop(graceful)`, `wait` and `_perform_action_on_threads`.

Everything is an immutable datatype with pure functions over it:

* One run of a looping call is a **script of events**. Each event is either a call of the callback, or a `stop()` that lands while the loop sleeps. A call event records three things:
  * what the callback did: a result, `LoopingCallDone(rv)` or another exception;
  * how long it took;
  * whether `stop()` took effect while it ran.

  `LoopingCall.RunLoop` maps a script to the sleeps the loop takes, the number of callback calls, and what the done event ends up holding.
* The `RetryDecorator` object is a record of its four parameters and its two counters. `Retry.Step` is one call of `_func`. `Retry.Decorated` is the decorated function: it feeds those steps through the dynamic loop and waits on the done event.
* A thread group is a record of two sequences, threads and timers, in order of addition:
  * each wrapper gets an identity from a counter, because Python compares wrappers by identity;
  * a thread also carries the identity of its green thread, which the current-thread check compares;
  * a timer carries the `LoopingCall.Call` state it was started with.

  Operations that act on threads or timers return the ordered trace of what they do. That trace records stops, kills, joins, waits and logged errors. What each action returns (normally, with `GreenletExit`, or with another error) is given as a function parameter.

The modules are laid out as follows:

* `Common` holds the shared types: Python values, exceptions, `Option` and `Result`.
* `LoopingCall` and `LoopingCallProofs` cover the looping-call engine.
* `Retry` and `RetryProofs` cover `RetryDecorator`.
* `ThreadGroup` and `ThreadGroupProofs` cover the thread group.

The proofs modules hold the lemmas that relate each recursive definition to a description written another way. For the looping call and the retry decorator these are closed forms without recursion. One example is "the loop ends at the first ending event of the script, after sleeping the idle time of every call before it" (`Idles`, `FirstEnd`, `Delays`, `CappedDelays`). For the thread group the reference is a filter of the snapshot (`Others`, `Failing`, `FailingTimers`). Membership in each filter is stated in both directions: an element is kept exactly when it belongs. For `Failing` and `FailingTimers` both directions are in the contract; for `Others` they are the lemma `ThreadGroupProofs.OthersMembers`. The lemma `ThreadGroupProofs.EachOtherThreadOnce` checks the reach once more by counting, with a multiset.

Durations are whole seconds, the unit of the source's defaults (`inc_sleep_time=10`, `max_sleep_time=60`). A callback's normal return is read as a number of seconds. The dynamic rule uses it as the suggested delay, and the fixed rule ignores it.

## Model

| member | source | states |
|---|---|---|
| `LoopingCall.LoopingCallDone` | oslo_service/loopingcall.py:45-47 | the exception ends the loop normally; without an argument its value is True, otherwise the given value |
| `LoopingCall.FixedIdle` | oslo_service/loopingcall.py:148-155 | the fixed-interval idle time is never negative; a call that finished within the interval sleeps exactly the rest of it (`idle + elapsed == interval`); a call that outlasted it does not sleep |
| `LoopingCall.DynamicIdle` | oslo_service/loopingcall.py:174-178 | without `periodic_interval_max` the idle time is the callback's suggestion; with it, the idle time is at most both the cap and the suggestion and equals one of them (the minimum) |
| `LoopingCall.InitialSleep` | oslo_service/loopingcall.py:107-108 | an initial delay is slept exactly when it is given and non-zero (None and 0 are falsy) |
| `LoopingCall.Loop` | oslo_service/loopingcall.py:109-136 | the loop calls back at most once per event; it sleeps after every call except possibly the last; if the done event has not been sent, every event was a call followed by a sleep |
| `LoopingCall.RunLoop` | oslo_service/loopingcall.py:102-136 | `_run_loop`'s sleeps begin with the initial sleep, followed by at most one sleep per call; while the done event is unsent, every event was a call |
| `LoopingCall.SafeWrapper` | oslo_service/loopingcall.py:50-64 | the wrapped callback never raises anything but `LoopingCallDone`: any other exception becomes the result 0, and results and `LoopingCallDone` pass through unchanged (what this does to a whole run: `LoopingCallProofs.SwallowingLoop`, `LoopingCallProofs.NoExceptionAfterSwallowing`) |
| `LoopingCall.Effective` | oslo_service/loopingcall.py:105-106 | the loop calls the bare callback when `stop_on_exception` is set and the wrapped one, which never raises an ordinary exception, when it is not |
| `LoopingCall.Wait` | oslo_service/loopingcall.py:84-85 | `wait()` returns the sent value, raises the sent exception, and has no answer exactly while nothing has been sent |
| `LoopingCall.NewCall` | oslo_service/loopingcall.py:73-79 | a new looping call is not running and has no thread and no done event |
| `LoopingCall.Start` | oslo_service/loopingcall.py:91-100 | `_start` fails with RuntimeError carrying the subclass's run-only-one message exactly when a thread is set; otherwise the call is running on the new thread with the given configuration and a done event newer than any before |
| `LoopingCall.StartFixed` | oslo_service/loopingcall.py:147-157 | `FixedIntervalLoopingCall.start` is refused exactly when a thread is set and otherwise runs with the fixed rule for the given interval |
| `LoopingCall.StartDynamic` | oslo_service/loopingcall.py:172-180 | `DynamicLoopingCall.start` is refused exactly when a thread is set and otherwise runs with the dynamic rule capped by `periodic_interval_max` |
| `LoopingCall.Stop` | oslo_service/loopingcall.py:81-82 | `stop` clears the running flag and leaves the thread, done event and configuration alone |
| `LoopingCall.OnDone` | oslo_service/loopingcall.py:87-89 | `_on_done` clears both the thread and the running flag and keeps the done event |
| `LoopingCallProofs.LoopStopsAtFirstEnd` | oslo_service/loopingcall.py:109-136 | the loop makes every call up to and including the first event that ends it and sleeps each earlier call's idle time, and nothing more; the done event gets what that event sends |
| `LoopingCallProofs.LoopWithoutEnd` | oslo_service/loopingcall.py:111-122 | when no event ends the loop, it calls back once per event, sleeps each call's idle time in order, and the done event stays unsent |
| `LoopingCallProofs.RunLoopStopsAtFirstEnd` | oslo_service/loopingcall.py:102-136 | the same for `_run_loop`, with the initial delay slept first |
| `LoopingCallProofs.RunLoopWithoutEnd` | oslo_service/loopingcall.py:102-122 | the same for `_run_loop` without an ending event |
| `LoopingCallProofs.StopSendsTrue` | oslo_service/loopingcall.py:111-136 | a `stop()` that lands while sleeping prevents any further call; one that lands during a call ends the loop before any idle time is computed or slept; either way the done event receives True |
| `LoopingCallProofs.DoneSendsRetvalue` | oslo_service/loopingcall.py:123-124 | raising `LoopingCallDone(rv)` ends the loop after that call and the done event carries `rv` |
| `LoopingCallProofs.DoneWithoutValueSendsTrue` | oslo_service/loopingcall.py:45-47 | a callback that raises `LoopingCallDone()` makes `wait()` return True |
| `LoopingCallProofs.ExceptionDelivered` | oslo_service/loopingcall.py:125-134 | with `stop_on_exception`, any other exception ends the loop after that call and `wait()` raises it |
| `LoopingCallProofs.SwallowingLoop` | oslo_service/loopingcall.py:50-64 | without `stop_on_exception`, the loop behaves exactly like the loop of a callback that returns 0 wherever the original raised something other than `LoopingCallDone` |
| `LoopingCallProofs.SwallowingNeverFails` | oslo_service/loopingcall.py:105-106 | without `stop_on_exception`, `_run_loop` is that same run and its done event never receives an exception |
| `LoopingCallProofs.NoExceptionAfterSwallowing` | oslo_service/loopingcall.py:53-62 | a wrapped callback never ends the loop with an exception |
| `LoopingCallProofs.FixedLoopSleepsNonNegative` | oslo_service/loopingcall.py:148-155 | every idle sleep of a fixed-interval loop is non-negative |
| `LoopingCallProofs.DynamicLoopSleepsCapped` | oslo_service/loopingcall.py:174-178 | every idle sleep of a dynamic loop with `periodic_interval_max` is at most the cap |
| `LoopingCallProofs.RunLoopSleepBounds` | oslo_service/loopingcall.py:107-122 | over a whole `_run_loop`, every sleep after the initial delay obeys its rule's bound |
| `LoopingCallProofs.Lifecycle` | oslo_service/loopingcall.py:87-99 | a started call cannot be started again, not even after `stop`, until `_on_done` has run; after it, a restart succeeds with a fresh done event |
| `Retry.NewDecorator` | oslo_service/loopingcall.py:193-219 | a new decorator keeps its parameters and starts both counters at 0 |
| `Retry.DefaultDecorator` | oslo_service/loopingcall.py:193-219 | the default decorator retries without bound, lists no exception, adds 10 seconds per retry up to at most 60, and starts both counters at 0 |
| `Retry.Step` | oslo_service/loopingcall.py:224-255 | a success raises `LoopingCallDone(result)`; an unlisted exception, or a listed one once `retry_count` has reached a bound other than -1, is raised again with the counters unchanged; otherwise both counters grow (by 1 and by `inc_sleep_time`) and the new `sleep_time` is returned as the next delay |
| `Retry.Steps` | oslo_service/loopingcall.py:224-255 | the loop calls `_func` until a call does not return a delay: every call but the last returned a delay, and the last one did not unless the attempts ran out |
| `Retry.RetryLoopConfig` | oslo_service/loopingcall.py:259-260 | the decorated function starts a dynamic loop capped at `max_sleep_time`, without an initial delay, stopping on exceptions |
| `Retry.Decorated` | oslo_service/loopingcall.py:257-262 | the decorated call makes at most one call per attempt and returns what `wait()` on the loop's done event yields |
| `RetryProofs.StepsAfterRetries` | oslo_service/loopingcall.py:250-254 | `k` listed failures with retries left make `_func` return the delays `sleep_time + inc_sleep_time`, `sleep_time + 2 * inc_sleep_time`, ... in order, and leave the decorator advanced by `k` retries |
| `RetryProofs.RetryEndsAt` | oslo_service/loopingcall.py:255-262 | after `k` retries, an attempt that does not retry ends the run: `k + 1` calls, each retry's delay capped at `max_sleep_time`, and the done event carries that attempt's answer |
| `RetryProofs.RetryStillRunning` | oslo_service/loopingcall.py:250-254 | while every attempt so far was a retried failure, the decorated call is still sleeping through the capped delays and its `wait()` has no answer |
| `RetryProofs.SuccessReturnsResult` | oslo_service/loopingcall.py:255-262 | a success after `k` retries makes the decorated call return the function's result, after `k + 1` calls |
| `RetryProofs.UnlistedPropagates` | oslo_service/loopingcall.py:232-233 | an exception that is not listed propagates from the first call, without retry and without touching the counters; with no exceptions listed that is every exception |
| `RetryProofs.DefaultNeverRetries` | oslo_service/loopingcall.py:193-194 | a default decorator lists no exception, so a failing first attempt is raised to the caller after one call, with no sleep and the counters still at 0 |
| `RetryProofs.RetriesExhausted` | oslo_service/loopingcall.py:240-249 | with a bound, a listed exception is retried until `retry_count` reaches `max_retry_count`, and the next one propagates |
| `RetryProofs.FreshDelays` | oslo_service/loopingcall.py:214-219 | for a new decorator that succeeds after `k` retries, the run sleeps `k` times and the `j`-th sleep (counting from 1) is `j * inc_sleep_time`, capped at `max_sleep_time` when a cap is given |
| `RetryProofs.DelaysCapped` | oslo_service/loopingcall.py:259-260 | every sleep of the decorated call is at most `max_sleep_time` |
| `RetryProofs.CountersNeverReset` | oslo_service/loopingcall.py:250-253 | a decorated call never lowers `retry_count`; each retry adds 1 to `retry_count` and `inc_sleep_time` to `sleep_time`, and the parameters are unchanged |
| `RetryProofs.RetryCountBounded` | oslo_service/loopingcall.py:240-253 | with a bound, `retry_count` never exceeds `max_retry_count` |
| `RetryProofs.ExhaustedStaysExhausted` | oslo_service/loopingcall.py:240-249 | because the counters carry over, once the retries are used up, any later failure of the decorated function propagates at once |
| `ThreadGroup.NewGroup` | oslo_service/threadgroup.py:69-72 | a new group keeps the pool size and has no threads and no timers |
| `ThreadGroup.DefaultGroup` | oslo_service/threadgroup.py:69-72 | `ThreadGroup()` without arguments uses a pool size of 10 and starts with no threads and no timers |
| `ThreadGroup.Remove` | oslo_service/threadgroup.py:96-97 | `list.remove` drops the first occurrence of the element and keeps every other element in its order |
| `ThreadGroup.ThreadsDropValid` | oslo_service/threadgroup.py:96-97 | dropping one thread keeps the wrappers distinct, and no remaining wrapper has the dropped one's identity |
| `ThreadGroup.TimersDropValid` | oslo_service/threadgroup.py:99-100 | dropping one timer keeps the wrappers distinct, and no remaining wrapper has the dropped one's identity |
| `ThreadGroup.AddThread` | oslo_service/threadgroup.py:90-94 | `add_thread` appends exactly one new wrapper, for the spawned green thread, at the end of `threads` and returns it; the existing entries and the timers are unchanged |
| `ThreadGroup.ThreadDone` | oslo_service/threadgroup.py:96-97 | `thread_done`, which the completion link calls, removes the first occurrence of that thread and keeps the others in order; it fails with ValueError exactly when the thread is not in the group; afterwards the thread is no longer in the group |
| `ThreadGroup.AddTimer` | oslo_service/threadgroup.py:82-88 | `add_timer` starts a fixed-interval looping call and appends it as the last timer, returning it; the threads are unchanged |
| `ThreadGroup.AddDynamicTimer` | oslo_service/threadgroup.py:74-80 | `add_dynamic_timer` does the same with a dynamic looping call capped by `periodic_interval_max` |
| `ThreadGroup.TimerDone` | oslo_service/threadgroup.py:99-100 | `timer_done` finds the timer by identity, whatever state its looping call is in now; it removes the first timer with that identity and keeps the others in order; it fails with ValueError exactly when no timer has that identity |
| `ThreadGroup.PerformActionOnThreads` | oslo_service/threadgroup.py:102-116 | every effect is the given action on a thread; every thread of the snapshot other than the caller's gets the action |
| `ThreadGroup.StopThreads` | oslo_service/threadgroup.py:118-121 | `_stop_threads` only kills, and it kills every thread other than the caller's |
| `ThreadGroup.StopTimers` | oslo_service/threadgroup.py:123-126 | `stop_timers` stops every timer once, in list order; the group afterwards differs from before only in having no timers, and stays valid |
| `ThreadGroup.WaitTimers` | oslo_service/threadgroup.py:146-153 | the first loop of `wait` only waits on timers and logs failed waits; it produces between one and two effects per timer in total (per timer: `ThreadGroupProofs.WaitTimersInOrder`) |
| `ThreadGroup.Wait` | oslo_service/threadgroup.py:145-156 | `wait` handles every timer before it touches any thread |
| `ThreadGroup.Stop` | oslo_service/threadgroup.py:128-143 | `stop` stops the timers first, and exactly those effects come first; a graceful stop never kills and an ungraceful one never waits; the group afterwards differs from before only in having no timers, and stays valid |
| `ThreadGroupProofs.ActsOnOthersInOrder` | oslo_service/threadgroup.py:102-116 | the action reaches exactly the snapshot's threads other than the caller's, in list order; exactly those whose action failed with an error other than `GreenletExit` are logged, in the same order, and the rest still get the action |
| `ThreadGroupProofs.OthersMembers` | oslo_service/threadgroup.py:104-109 | the threads to act on are exactly the snapshot's threads other than the caller's (both directions); with `ActsOnOthersInOrder`, each of them gets the action |
| `ThreadGroupProofs.OthersCount` | oslo_service/threadgroup.py:106-109 | with distinct wrappers, each thread other than the caller's occurs exactly once among the threads acted on, and the caller's thread does not occur |
| `ThreadGroupProofs.EachOtherThreadOnce` | oslo_service/threadgroup.py:102-111 | with distinct wrappers, every other thread gets the action exactly once and the caller's thread never does |
| `ThreadGroupProofs.StopTimersFirst` | oslo_service/threadgroup.py:128-143 | the effects of `stop` are the timer stops followed by the thread action: join when graceful, because the timer list is already empty and `wait` finds no timer; kill when not |
| `ThreadGroupProofs.StopActsOnOthers` | oslo_service/threadgroup.py:135-143 | `stop` reaches exactly the threads other than the caller's, with only joins when graceful and only kills when not |
| `ThreadGroupProofs.WaitTimersInOrder` | oslo_service/threadgroup.py:146-153 | the first loop of `wait` waits on the timers exactly in list order; it logs a failed wait for exactly the timers whose wait failed with something other than `GreenletExit`, in the same order, and goes on after each failure |
| `ThreadGroupProofs.WaitTimersLogsFailures` | oslo_service/threadgroup.py:146-153 | every timer is waited on; every wait that fails with something other than `GreenletExit` is logged, and only such waits are |
| `ThreadGroupProofs.AddThreadThenDone` | oslo_service/threadgroup.py:90-97 | `add_thread` followed by that thread's completion link restores the thread list |
| `ThreadGroupProofs.AddTimerThenDone` | oslo_service/threadgroup.py:82-100 | `add_timer` followed by `timer_done` on that timer restores the timer list, whatever the timer's looping call went through in between (for example `stop()` or `_on_done`) |
| `ThreadGroupProofs.DoneOfLastTimer` | oslo_service/threadgroup.py:99-100 | `timer_done` on the last timer, whose identity no other timer has, drops exactly that timer |
| `ThreadGroupProofs.GracefulStopLetsTaskFinish` | oslo_service/tests/test_service.py:466-498 | a service whose one task runs in its group, stopped from another thread: a graceful stop only joins that task, so it can finish; an ungraceful stop kills it |

## Left out

- Eventlet scheduling is not modelled:
  - `greenthread.spawn`, `greenthread.sleep`, `GreenThread.kill`, `link` and event waiting are abstract;
  - a thread is an opaque handle, and what an action on it does is a scripted outcome;
  - a sleep appears only as an entry in the run's list of sleeps.
- `GreenPool` capacity blocking (`threadgroup.py:70`) is left out. The pool size is only recorded, and `add_thread` never blocks.
- Wall-clock time (`timeutils.StopWatch`) and floating-point seconds are left out. Elapsed times are whole seconds that the script supplies.
- Logging, the i18n wrappers around messages and `reflection.get_callable_name` are left out, because they have no effect on behaviour. A logged error of the thread group appears in the effect trace. The three run-only-one messages are kept verbatim.
- Callback results that are not numbers are left out. A normal return is modelled by its numeric reading, which is all the dynamic rule uses; the fixed rule ignores it.
- Exception subclassing is left out. `RetryDecorator`'s `exceptions` tuple is a set of exception classes, and an exception is listed only when its own class is in the set.
- `LoopingCallBase.wait` before any `start` is left out. There `self.done` is still None, so the source raises AttributeError on `None.wait`, while the model's `Wait` reads a done event that exists.
- A wrapped function of `RetryDecorator` that itself raises `LoopingCallDone(rv)` is left out. When that class is not listed, `_func` lets it through (`loopingcall.py:232-233`), and the loop sends `rv` (`:123-124`), so the decorated call returns `rv`. `Retry.Attempt` has no case for it: an attempt either returns or raises an ordinary exception.
- Exceptions that are not `Exception` subclasses (`BaseException`, such as `GreenletExit`) are left out. The `except Exception` clauses at `loopingcall.py:58` and `:125` do not catch them, so they end the loop's thread without sending the done event. In the model, every `Raised` exception is caught.
- The state of a timer's looping call inside the group is the state at `start`. Python's group holds the same looping-call object as the caller, so a later `stop()` or `_on_done` on it shows in the group's list too. The model's copy does not change. What the group does to its timers is recorded in the effect trace, and `ThreadGroup.TimerDone` finds a timer by identity, so the stale copy never affects a lookup.
- The counters of `RetryDecorator` are never reset between calls of the decorated function. The model follows the code (`RetryProofs.ExhaustedStaysExhausted`).
- Thread removal after `stop` is left out. A killed or joined thread leaves `threads` only when its completion link runs `thread_done`, so `Stop` leaves the thread list as it was and the removal is `ThreadGroup.ThreadDone`.
- `Thread.stop`, `Thread.wait` and `Thread.link` are left out as separate functions. They appear only as the `Kill` and `Join` actions and as the completion link that `ThreadDone` models.
- The launcher, signal handling, backdoor and SSL code that the test files exercise is left out. `service.py`, `eventlet_backdoor.py` and `sslutils.py` are not part of this model.
- `ThreadGroup.PerformActionOnThreads`: its own contract says only that every other thread is reached. The exact order, the skip of the caller's thread and the logging are stated by `ThreadGroupProofs.ActsOnOthersInOrder`.
- `ThreadGroup.Wait`: its own contract says only that timers come first. What happens to each timer and thread is stated by `ThreadGroupProofs.WaitTimersInOrder` and `ThreadGroupProofs.ActsOnOthersInOrder`.

=== FILE: common.dfy ===
/** Vocabulary shared by the looping-call engine and the thread group:
    optional values, the framework's own errors, the Python values that a
    done event can carry, and user exceptions. */
module Common {

  datatype Option<+T> = None | Some(value: T)

  /** A Python value that travels through a done event. Only the shapes the
      model needs to tell apart are kept: `None`, booleans, integers, and any
      other object, identified by an opaque tag. */
  datatype Value = NoneValue | BoolValue(b: bool) | IntValue(i: int) | ObjectValue(tag: nat)

  /** Python's `True`, the value a looping call sends when it ends without
      an explicit return value. */
  const True: Value := BoolValue(true)

  /** The class of a user exception. Subclassing is not modelled: a class
      matches an `except` clause only when it is listed there. */
  type ExcClass = nat

  /** One raised exception: its class and an instance tag, so that the model
      can say that the very same exception is delivered to a waiter. */
  datatype Exc = Exc(cls: ExcClass, instance: nat)

  /** Errors raised by the framework itself rather than by user code. */
  datatype Error =
    | RuntimeError(message: string)   // `_start` on a call whose thread is still set
    | ValueError                      // `list.remove` of an element that is not there

  datatype Result<+T> = Ok(value: T) | Err(error: Error)

  function Min(a: int, b: int): (m: int)
    ensures m <= a && m <= b
    ensures m == a || m == b
  {
    if a <= b then a else b
  }
}

=== FILE: looping_call.dfy ===
/** The looping-call engine of `oslo_service/loopingcall.py`: the
    run-only-one guard and running flag of `LoopingCallBase`, the idle-time
    rules of the fixed-interval and dynamic looping calls, and the body of
    `_run_loop` as a pure function of a scripted run.

    The green thread that runs the loop is an opaque handle. Durations are
    whole seconds, the unit of the source's defaults. One run of the loop
    is described by a script of events: each call of the callback with
    what it did and how long it took, and every `stop()` that lands while
    the loop sleeps. */
module LoopingCall {
  import opened Common

  /** What one call of the callback did. A normal return is read as a number
      of seconds: the dynamic rule takes it as the suggested delay, the
      fixed rule ignores it. `Done` is the callback raising
      `LoopingCallDone(retvalue)`; `Raised` is any other exception. */
  datatype Outcome = Returned(result: int) | Done(retvalue: Value) | Raised(exc: Exc)

  /** `LoopingCallDone(retvalue=True)`: without an argument the value is True. */
  function LoopingCallDone(retvalue: Option<Value>): (o: Outcome)
    ensures o.Done?
    ensures retvalue.None? ==> o.retvalue == True
    ensures retvalue.Some? ==> o.retvalue == retvalue.value
  {
    Done(if retvalue.Some? then retvalue.value else True)
  }

  /** `_safe_wrapper`: any exception other than `LoopingCallDone` is logged
      and turned into the result 0; `LoopingCallDone` passes through. */
  function SafeWrapper(o: Outcome): (w: Outcome)
    ensures !w.Raised?
    ensures o.Raised? ==> w == Returned(0)
    ensures !o.Raised? ==> w == o
  {
    match o
    case Raised(_) => Returned(0)
    case _ => o
  }

  /** The callback as `_run_loop` sees it: wrapped unless `stop_on_exception`. */
  function Effective(stopOnException: bool, o: Outcome): (e: Outcome)
    ensures stopOnException ==> e == o
    ensures !stopOnException ==> e == SafeWrapper(o) && !e.Raised?
  {
    if stopOnException then o else SafeWrapper(o)
  }

  /** Which idle-time rule the loop uses between two calls. */
  datatype IdleRule =
    | FixedRule(interval: int)               // FixedIntervalLoopingCall.start
    | DynamicRule(intervalMax: Option<int>)  // DynamicLoopingCall.start

  /** `FixedIntervalLoopingCall.start._idle_for`: sleep for what is left of
      the interval, or not at all when the call outlasted it. */
  function FixedIdle(interval: int, elapsed: int): (idle: int)
    ensures idle >= 0
    ensures elapsed <= interval ==> idle + elapsed == interval
    ensures elapsed >= interval ==> idle == 0
  {
    var delay := elapsed - interval;
    if delay < 0 then -delay else 0
  }

  /** `DynamicLoopingCall.start._idle_for`: the callback's suggested delay,
      capped by `periodic_interval_max` when that is given. */
  function DynamicIdle(intervalMax: Option<int>, suggested: int): (idle: int)
    ensures intervalMax.None? ==> idle == suggested
    ensures intervalMax.Some? ==> idle <= intervalMax.value && idle <= suggested
    ensures intervalMax.Some? ==> idle == suggested || idle == intervalMax.value
  {
    if intervalMax.Some? then Min(suggested, intervalMax.value) else suggested
  }

  function IdleFor(rule: IdleRule, result: int, elapsed: int): int
  {
    match rule
    case FixedRule(interval) => FixedIdle(interval, elapsed)
    case DynamicRule(intervalMax) => DynamicIdle(intervalMax, result)
  }

  /** The arguments `_start` hands to `_run_loop`. */
  datatype LoopConfig = LoopConfig(rule: IdleRule, initialDelay: Option<int>, stopOnException: bool)

  /** One step of a scripted run. `Invoke` is one call of the callback;
      `stopDuring` says that `stop()` took effect while that call ran.
      `StopWhileIdle` is a `stop()` that took effect while the loop slept
      (or before its first call). */
  datatype Event = Invoke(outcome: Outcome, elapsed: int, stopDuring: bool) | StopWhileIdle

  /** What the done event ends up holding: nothing yet (the script ran out
      while the loop still runs), a value, or an exception. */
  datatype End = Pending | Sent(value: Value) | SentException(exc: Exc)

  /** A scripted run: every sleep taken in order, the number of callback
      calls, and the final state of the done event. */
  datatype Run = Run(sleeps: seq<int>, calls: nat, end: End)

  /** `if initial_delay: greenthread.sleep(initial_delay)`: `None` and 0 are
      falsy and skip the sleep. */
  function InitialSleep(initialDelay: Option<int>): (s: seq<int>)
    ensures |s| <= 1
    ensures |s| == 1 <==> initialDelay.Some? && initialDelay.value != 0
    ensures |s| == 1 ==> s[0] == initialDelay.value
  {
    if initialDelay.Some? && initialDelay.value != 0 then [initialDelay.value] else []
  }

  /** The `while self._running` loop of `_run_loop`, from the first check of
      the running flag on. */
  function Loop(rule: IdleRule, stopOnException: bool, script: seq<Event>): (r: Run)
    ensures r.calls <= |script|
    ensures |r.sleeps| == r.calls || |r.sleeps| + 1 == r.calls
    ensures r.end.Pending? ==> r.calls == |r.sleeps| == |script|
    decreases |script|
  {
    if script == [] then Run([], 0, Pending)
    else
      match script[0]
      case StopWhileIdle =>
        // the running check fails: the loop's else-branch sends True
        Run([], 0, Sent(True))
      case Invoke(outcome, elapsed, stopDuring) =>
        match Effective(stopOnException, outcome)
        case Done(rv) => Run([], 1, Sent(rv))
        case Raised(exc) => Run([], 1, SentException(exc))
        case Returned(result) =>
          if stopDuring then
            // `if not self._running: break`, before any idle time is computed
            Run([], 1, Sent(True))
          else
            var rest := Loop(rule, stopOnException, script[1..]);
            Run([IdleFor(rule, result, elapsed)] + rest.sleeps, rest.calls + 1, rest.end)
  }

  /** `_run_loop`: the optional initial delay, then the loop. */
  function RunLoop(cfg: LoopConfig, script: seq<Event>): (r: Run)
    ensures r.calls <= |script|
    ensures |InitialSleep(cfg.initialDelay)| <= |r.sleeps| <= |InitialSleep(cfg.initialDelay)| + r.calls
    ensures r.sleeps[..|InitialSleep(cfg.initialDelay)|] == InitialSleep(cfg.initialDelay)
    ensures r.end.Pending? ==> r.calls == |script|
  {
    var loop := Loop(cfg.rule, cfg.stopOnException, script);
    Run(InitialSleep(cfg.initialDelay) + loop.sleeps, loop.calls, loop.end)
  }

  /** What `wait()` on the done event gives: the sent value, the sent
      exception raised again, or no answer yet. */
  datatype Waited = Returns(value: Value) | Raises(exc: Exc) | Blocks

  function Wait(end: End): (w: Waited)
    ensures w.Blocks? <==> end.Pending?
    ensures end.Sent? ==> w == Returns(end.value)
    ensures end.SentException? ==> w == Raises(end.exc)
  {
    match end
    case Pending => Blocks
    case Sent(v) => Returns(v)
    case SentException(e) => Raises(e)
  }

  // ---------------------------------------------------------------------
  // The run-only-one guard and the running flag of LoopingCallBase

  /** Which subclass a call belongs to; it selects the error message. */
  datatype Kind = BaseKind | FixedKind | DynamicKind

  function RunOnlyOneMessage(kind: Kind): string
  {
    match kind
    case BaseKind => "A looping call can only run one function at a time"
    case FixedKind => "A fixed interval looping call can only run one function at a time"
    case DynamicKind => "A dynamic interval looping call can only run one function at a time"
  }

  /** The mutable part of a `LoopingCallBase`: the running flag, the green
      thread running the loop, the current done event, and the loop
      configuration it was started with. Done events are numbered in order
      of creation; `eventsCreated` is how many this call has made. */
  datatype Call = Call(
    kind: Kind,
    running: bool,
    thread: Option<nat>,
    done: Option<nat>,
    config: Option<LoopConfig>,
    eventsCreated: nat)

  /** Every field that `__init__` sets: not running, no thread, no event. */
  function NewCall(kind: Kind): (c: Call)
    ensures !c.running && c.thread.None? && c.done.None? && Valid(c)
  {
    Call(kind, false, None, None, None, 0)
  }

  /** The done event is one this call created, and a live thread has an
      event and a configuration. */
  predicate Valid(c: Call)
  {
    && (c.done.Some? ==> c.done.value < c.eventsCreated)
    && (c.thread.Some? ==> c.done.Some? && c.config.Some?)
  }

  /** `_start`: refused with RuntimeError while a thread is set; otherwise
      the call runs with a fresh done event on the new thread `handle`. */
  function Start(c: Call, cfg: LoopConfig, handle: nat): (r: Result<Call>)
    ensures r.Err? <==> c.thread.Some?
    ensures r.Err? ==> r.error == RuntimeError(RunOnlyOneMessage(c.kind))
    ensures r.Ok? ==> r.value.running && r.value.thread == Some(handle) && r.value.config == Some(cfg)
    ensures r.Ok? ==> r.value.kind == c.kind && r.value.done.Some?
    ensures r.Ok? && Valid(c) ==> Valid(r.value)
    ensures r.Ok? && Valid(c) && c.done.Some? ==> r.value.done.value > c.done.value
  {
    if c.thread.Some? then Err(RuntimeError(RunOnlyOneMessage(c.kind)))
    else
      Ok(c.(running := true, thread := Some(handle), done := Some(c.eventsCreated),
            config := Some(cfg), eventsCreated := c.eventsCreated + 1))
  }

  /** `FixedIntervalLoopingCall.start`. */
  function StartFixed(c: Call, interval: int, initialDelay: Option<int>, stopOnException: bool, handle: nat): (r: Result<Call>)
    requires c.kind == FixedKind
    ensures r.Err? <==> c.thread.Some?
    ensures r.Ok? ==> r.value.running && r.value.config == Some(LoopConfig(FixedRule(interval), initialDelay, stopOnException))
  {
    Start(c, LoopConfig(FixedRule(interval), initialDelay, stopOnException), handle)
  }

  /** `DynamicLoopingCall.start`. */
  function StartDynamic(c: Call, initialDelay: Option<int>, intervalMax: Option<int>, stopOnException: bool, handle: nat): (r: Result<Call>)
    requires c.kind == DynamicKind
    ensures r.Err? <==> c.thread.Some?
    ensures r.Ok? ==> r.value.running && r.value.config == Some(LoopConfig(DynamicRule(intervalMax), initialDelay, stopOnException))
  {
    Start(c, LoopConfig(DynamicRule(intervalMax), initialDelay, stopOnException), handle)
  }

  /** `stop`: only clears the running flag; the thread stays set until the
      loop has finished. */
  function Stop(c: Call): (c': Call)
    ensures !c'.running
    ensures c'.thread == c.thread && c'.done == c.done && c'.config == c.config
    ensures Valid(c) ==> Valid(c')
  {
    c.(running := false)
  }

  /** `_on_done`, linked to the loop's thread: forget the thread and clear
      the running flag, so that the call may be started again. */
  function OnDone(c: Call): (c': Call)
    ensures c'.thread.None? && !c'.running
    ensures c'.done == c.done && c'.kind == c.kind
    ensures Valid(c) ==> Valid(c')
  {
    c.(thread := None, running := false)
  }
}

=== FILE: looping_call_proofs.dfy ===
/** Properties of the looping-call engine: a non-recursive reading of a
    scripted run (everything up to the first event that ends the loop), the
    outcome rules derived from it, the idle-time bounds over a whole run,
    and the lifecycle of the run-only-one guard. */
module LoopingCallProofs {
  import opened Common
  import opened LoopingCall

  /** Whether an event ends the loop: a stop while sleeping, a stop during
      the call, `LoopingCallDone`, or an exception that is not swallowed. */
  predicate EndsLoop(stopOnException: bool, e: Event)
  {
    match e
    case StopWhileIdle => true
    case Invoke(outcome, _, stopDuring) =>
      stopDuring || !Effective(stopOnException, outcome).Returned?
  }

  /** What the done event receives when the loop ends at `e`. A
      `LoopingCallDone` or an exception wins over a stop during the same
      call, because it leaves the call before the running flag is checked. */
  function EndOf(stopOnException: bool, e: Event): End
    requires EndsLoop(stopOnException, e)
  {
    if e.StopWhileIdle? then Sent(True)
    else if Effective(stopOnException, e.outcome).Done? then Sent(e.outcome.retvalue)
    else if Effective(stopOnException, e.outcome).Raised? then SentException(e.outcome.exc)
    else Sent(True)
  }

  /** The idle time computed after a call that does not end the loop. */
  function IdleAfter(rule: IdleRule, stopOnException: bool, e: Event): int
    requires !EndsLoop(stopOnException, e)
  {
    IdleFor(rule, Effective(stopOnException, e.outcome).result, e.elapsed)
  }

  predicate NoEnd(stopOnException: bool, script: seq<Event>)
  {
    forall j :: 0 <= j < |script| ==> !EndsLoop(stopOnException, script[j])
  }

  /** The idle times of a stretch of calls none of which ends the loop. */
  function Idles(rule: IdleRule, stopOnException: bool, script: seq<Event>): (s: seq<int>)
    requires NoEnd(stopOnException, script)
  {
    seq(|script|, j requires 0 <= j < |script| => IdleAfter(rule, stopOnException, script[j]))
  }

  /** `k` is the first event of the script that ends the loop. */
  predicate FirstEnd(stopOnException: bool, script: seq<Event>, k: int)
  {
    && 0 <= k < |script|
    && EndsLoop(stopOnException, script[k])
    && NoEnd(stopOnException, script[..k])
  }

  lemma IdlesCons(rule: IdleRule, stopOnException: bool, script: seq<Event>, k: nat)
    requires 0 < k <= |script|
    requires NoEnd(stopOnException, script[..k])
    ensures NoEnd(stopOnException, script[1..][..k-1])
    ensures Idles(rule, stopOnException, script[..k])
         == [IdleAfter(rule, stopOnException, script[0])] + Idles(rule, stopOnException, script[1..][..k-1])
  {
    assert script[1..][..k-1] == script[..k][1..];
  }

  /** The loop runs every call before the first ending event, sleeping the
      computed idle time after each, and then ends as that event says. */
  lemma {:induction false} LoopStopsAtFirstEnd(rule: IdleRule, stopOnException: bool, script: seq<Event>, k: nat)
    requires FirstEnd(stopOnException, script, k)
    ensures Loop(rule, stopOnException, script)
         == Run(Idles(rule, stopOnException, script[..k]),
                k + (if script[k].Invoke? then 1 else 0),
                EndOf(stopOnException, script[k]))
    decreases k
  {
    if k == 0 {
      assert script[..0] == [];
    } else {
      assert !EndsLoop(stopOnException, script[..k][0]);
      IdlesCons(rule, stopOnException, script, k);
      assert FirstEnd(stopOnException, script[1..], k - 1) by {
        assert script[1..][..k-1] == script[..k][1..];
      }
      LoopStopsAtFirstEnd(rule, stopOnException, script[1..], k - 1);
    }
  }

  /** Without an ending event the loop calls back once per event, sleeps
      after every call, and is still running when the script runs out. */
  lemma {:induction false} LoopWithoutEnd(rule: IdleRule, stopOnException: bool, script: seq<Event>)
    requires NoEnd(stopOnException, script)
    ensures Loop(rule, stopOnException, script)
         == Run(Idles(rule, stopOnException, script), |script|, Pending)
    decreases |script|
  {
    if script != [] {
      assert !EndsLoop(stopOnException, script[0]);
      assert NoEnd(stopOnException, script[1..]);
      LoopWithoutEnd(rule, stopOnException, script[1..]);
      assert Idles(rule, stopOnException, script)
          == [IdleAfter(rule, stopOnException, script[0])] + Idles(rule, stopOnException, script[1..]);
    }
  }

  /** `_run_loop` ends at the first ending event: the initial delay, one idle
      time per earlier call, one callback call per `Invoke` up to and
      including that event, and the done event set as the event says. */
  lemma RunLoopStopsAtFirstEnd(cfg: LoopConfig, script: seq<Event>, k: nat)
    requires FirstEnd(cfg.stopOnException, script, k)
    ensures RunLoop(cfg, script)
         == Run(InitialSleep(cfg.initialDelay) + Idles(cfg.rule, cfg.stopOnException, script[..k]),
                k + (if script[k].Invoke? then 1 else 0),
                EndOf(cfg.stopOnException, script[k]))
  {
    LoopStopsAtFirstEnd(cfg.rule, cfg.stopOnException, script, k);
  }

  lemma RunLoopWithoutEnd(cfg: LoopConfig, script: seq<Event>)
    requires NoEnd(cfg.stopOnException, script)
    ensures RunLoop(cfg, script)
         == Run(InitialSleep(cfg.initialDelay) + Idles(cfg.rule, cfg.stopOnException, script), |script|, Pending)
  {
    LoopWithoutEnd(cfg.rule, cfg.stopOnException, script);
  }

  /** A `stop()` ends the loop with True: while sleeping, no further call is
      made; during a call that returns normally, no idle time is computed
      and no sleep follows that call. */
  lemma StopSendsTrue(cfg: LoopConfig, script: seq<Event>, k: nat)
    requires 0 <= k < |script| && NoEnd(cfg.stopOnException, script[..k])
    requires script[k].StopWhileIdle?
          || (script[k].stopDuring && Effective(cfg.stopOnException, script[k].outcome).Returned?)
    ensures RunLoop(cfg, script).end == Sent(True)
    ensures RunLoop(cfg, script).calls == (if script[k].Invoke? then k + 1 else k)
    ensures |RunLoop(cfg, script).sleeps| == |InitialSleep(cfg.initialDelay)| + k
  {
    RunLoopStopsAtFirstEnd(cfg, script, k);
  }

  /** Raising `LoopingCallDone(rv)` ends the loop and the done event carries
      `rv`, whatever the `stop_on_exception` flag and even when `stop()`
      landed during the same call. */
  lemma DoneSendsRetvalue(cfg: LoopConfig, script: seq<Event>, k: nat)
    requires 0 <= k < |script| && NoEnd(cfg.stopOnException, script[..k])
    requires script[k].Invoke? && script[k].outcome.Done?
    ensures RunLoop(cfg, script).end == Sent(script[k].outcome.retvalue)
    ensures RunLoop(cfg, script).calls == k + 1
  {
    RunLoopStopsAtFirstEnd(cfg, script, k);
  }

  /** `LoopingCallDone()` without an argument makes `wait()` return True. */
  lemma DoneWithoutValueSendsTrue(cfg: LoopConfig, elapsed: int, stopDuring: bool, rest: seq<Event>)
    ensures Wait(RunLoop(cfg, [Invoke(LoopingCallDone(None), elapsed, stopDuring)] + rest).end) == Returns(True)
  {
    var script := [Invoke(LoopingCallDone(None), elapsed, stopDuring)] + rest;
    assert script[..0] == [];
    DoneSendsRetvalue(cfg, script, 0);
  }

  /** With `stop_on_exception`, any other exception ends the loop and is
      delivered to whoever waits on the done event. */
  lemma ExceptionDelivered(cfg: LoopConfig, script: seq<Event>, k: nat)
    requires cfg.stopOnException
    requires 0 <= k < |script| && NoEnd(cfg.stopOnException, script[..k])
    requires script[k].Invoke? && script[k].outcome.Raised?
    ensures RunLoop(cfg, script).end == SentException(script[k].outcome.exc)
    ensures Wait(RunLoop(cfg, script).end) == Raises(script[k].outcome.exc)
    ensures RunLoop(cfg, script).calls == k + 1
  {
    RunLoopStopsAtFirstEnd(cfg, script, k);
  }

  /** The script with every exception turned into the result 0. */
  function Swallowed(script: seq<Event>): (s: seq<Event>)
    ensures |s| == |script|
    ensures forall j :: 0 <= j < |s| ==> s[j].Invoke? == script[j].Invoke?
  {
    seq(|script|, j requires 0 <= j < |script| =>
      match script[j]
      case Invoke(o, elapsed, stopDuring) => Invoke(SafeWrapper(o), elapsed, stopDuring)
      case StopWhileIdle => StopWhileIdle)
  }

  /** Without `stop_on_exception`, a run is the run of the same callback
      whose exceptions are replaced by the result 0. */
  lemma {:induction false} SwallowingLoop(rule: IdleRule, script: seq<Event>)
    ensures Loop(rule, false, script) == Loop(rule, true, Swallowed(script))
    decreases |script|
  {
    if script != [] {
      assert Swallowed(script)[1..] == Swallowed(script[1..]);
      SwallowingLoop(rule, script[1..]);
    }
  }

  /** Without `stop_on_exception` the done event never receives an
      exception: every run ends with a value or is still running. */
  lemma SwallowingNeverFails(cfg: LoopConfig, script: seq<Event>)
    requires !cfg.stopOnException
    ensures RunLoop(cfg, script) == RunLoop(cfg.(stopOnException := true), Swallowed(script))
    ensures !RunLoop(cfg, script).end.SentException?
  {
    SwallowingLoop(cfg.rule, script);
    NoExceptionAfterSwallowing(cfg.rule, script);
  }

  lemma {:induction false} NoExceptionAfterSwallowing(rule: IdleRule, script: seq<Event>)
    ensures !Loop(rule, false, script).end.SentException?
    decreases |script|
  {
    if script != [] {
      NoExceptionAfterSwallowing(rule, script[1..]);
    }
  }

  /** Every sleep of a fixed-interval loop after the initial delay is
      non-negative. */
  lemma {:induction false} FixedLoopSleepsNonNegative(interval: int, stopOnException: bool, script: seq<Event>)
    ensures forall j :: 0 <= j < |Loop(FixedRule(interval), stopOnException, script).sleeps| ==>
              Loop(FixedRule(interval), stopOnException, script).sleeps[j] >= 0
    decreases |script|
  {
    if script != [] {
      FixedLoopSleepsNonNegative(interval, stopOnException, script[1..]);
    }
  }

  /** Every sleep of a dynamic loop with `periodic_interval_max` after the
      initial delay is at most that cap. */
  lemma {:induction false} DynamicLoopSleepsCapped(intervalMax: int, stopOnException: bool, script: seq<Event>)
    ensures forall j :: 0 <= j < |Loop(DynamicRule(Some(intervalMax)), stopOnException, script).sleeps| ==>
              Loop(DynamicRule(Some(intervalMax)), stopOnException, script).sleeps[j] <= intervalMax
    decreases |script|
  {
    if script != [] {
      DynamicLoopSleepsCapped(intervalMax, stopOnException, script[1..]);
    }
  }

  /** The idle-time bounds of the two subclasses over a whole `_run_loop`:
      the sleeps after the initial delay are never negative for a fixed
      interval and never above the cap for a capped dynamic interval. */
  lemma RunLoopSleepBounds(cfg: LoopConfig, script: seq<Event>)
    ensures var r := RunLoop(cfg, script);
            var i := |InitialSleep(cfg.initialDelay)|;
            && (cfg.rule.FixedRule? ==> forall j :: i <= j < |r.sleeps| ==> r.sleeps[j] >= 0)
            && (cfg.rule.DynamicRule? && cfg.rule.intervalMax.Some? ==>
                  forall j :: i <= j < |r.sleeps| ==> r.sleeps[j] <= cfg.rule.intervalMax.value)
  {
    var loop := Loop(cfg.rule, cfg.stopOnException, script);
    var i := |InitialSleep(cfg.initialDelay)|;
    assert forall j :: i <= j < |RunLoop(cfg, script).sleeps| ==> RunLoop(cfg, script).sleeps[j] == loop.sleeps[j - i];
    match cfg.rule
    case FixedRule(interval) => FixedLoopSleepsNonNegative(interval, cfg.stopOnException, script);
    case DynamicRule(intervalMax) =>
      if intervalMax.Some? {
        DynamicLoopSleepsCapped(intervalMax.value, cfg.stopOnException, script);
      }
  }

  /** The run-only-one guard over a sequence of calls: a started call cannot
      be started again, not even after `stop()`, until its thread has
      finished and `_on_done` ran; then it can, with a fresh done event. */
  lemma Lifecycle(c: Call, cfg: LoopConfig, cfg': LoopConfig, h: nat, h': nat)
    requires Valid(c) && Start(c, cfg, h).Ok?
    ensures Start(Start(c, cfg, h).value, cfg', h').Err?
    ensures Start(Stop(Start(c, cfg, h).value), cfg', h').Err?
    ensures var restarted := Start(OnDone(Start(c, cfg, h).value), cfg', h');
            restarted.Ok? && restarted.value.running
            && restarted.value.done.value > Start(c, cfg, h).value.done.value
  {
  }
}

=== FILE: retry.dfy ===
/** `RetryDecorator` of `oslo_service/loopingcall.py`: a counter state
    machine wrapped around the user's function, run by a dynamic looping
    call whose delay is capped at `max_sleep_time`.

    The counters live in the decorator object, start at 0 and are never
    reset, so they carry over from one call of the decorated function to
    the next; the model threads the decorator state through every call. */
module Retry {
  import opened Common
  import opened LoopingCall

  /** What one call of the wrapped function did. */
  datatype Attempt = Succeeded(result: Value) | Failed(exc: Exc)

  /** The decorator object: its four parameters and its two counters.
      `maxSleepTime` is `None` when the caller passes `max_sleep_time=None`,
      which leaves the dynamic loop uncapped. */
  datatype Decorator = Decorator(
    maxRetryCount: int,
    incSleepTime: int,
    maxSleepTime: Option<int>,
    exceptions: set<ExcClass>,
    retryCount: int,
    sleepTime: int)

  const DefaultMaxRetryCount: int := -1
  const DefaultIncSleepTime: int := 10
  const DefaultMaxSleepTime: int := 60

  /** `RetryDecorator.__init__`. */
  function NewDecorator(maxRetryCount: int, incSleepTime: int, maxSleepTime: Option<int>,
                        exceptions: set<ExcClass>): (d: Decorator)
    ensures d.retryCount == 0 && d.sleepTime == 0
    ensures d.maxRetryCount == maxRetryCount && d.incSleepTime == incSleepTime
    ensures d.maxSleepTime == maxSleepTime && d.exceptions == exceptions
  {
    Decorator(maxRetryCount, incSleepTime, maxSleepTime, exceptions, 0, 0)
  }

  /** `RetryDecorator()` with every parameter at its default: unbounded
      retries, 10 seconds more per retry, at most 60 seconds, and no
      exception listed. */
  function DefaultDecorator(): (d: Decorator)
    ensures d.maxRetryCount == DefaultMaxRetryCount == -1 && d.exceptions == {}
    ensures d.incSleepTime == DefaultIncSleepTime == 10
    ensures d.maxSleepTime == Some(DefaultMaxSleepTime) && DefaultMaxSleepTime == 60
    ensures d.retryCount == 0 && d.sleepTime == 0
  {
    NewDecorator(DefaultMaxRetryCount, DefaultIncSleepTime, Some(DefaultMaxSleepTime), {})
  }

  /** The guard of the retry branch: `-1` means unbounded. */
  predicate MayRetry(d: Decorator)
  {
    d.maxRetryCount == -1 || d.retryCount < d.maxRetryCount
  }

  /** `_func`: one call of the wrapped function under the decorator. A
      result ends the loop through `LoopingCallDone(result)`; an unlisted
      exception, or a listed one once the retries are used up, is raised
      again; a listed one with retries left bumps both counters and asks the
      loop to sleep for the new `sleep_time`. */
  function Step(d: Decorator, a: Attempt): (res: (Decorator, Outcome))
    ensures a.Succeeded? ==> res == (d, Done(a.result))
    ensures a.Failed? && (a.exc.cls !in d.exceptions || !MayRetry(d)) ==> res == (d, Raised(a.exc))
    ensures a.Failed? && a.exc.cls in d.exceptions && MayRetry(d) ==>
              && res.0 == d.(retryCount := d.retryCount + 1, sleepTime := d.sleepTime + d.incSleepTime)
              && res.1 == Returned(res.0.sleepTime)
  {
    match a
    case Succeeded(result) => (d, LoopingCallDone(Some(result)))
    case Failed(exc) =>
      if exc.cls !in d.exceptions then (d, Raised(exc))
      else if d.maxRetryCount != -1 && d.retryCount >= d.maxRetryCount then (d, Raised(exc))
      else
        var d' := d.(retryCount := d.retryCount + 1, sleepTime := d.sleepTime + d.incSleepTime);
        (d', Returned(d'.sleepTime))
  }

  /** The calls of `_func` the dynamic loop makes for a script of attempts:
      one per attempt, up to and including the first that does not ask for
      another call. Returns the decorator afterwards and what each call did. */
  function Steps(d: Decorator, attempts: seq<Attempt>): (res: (Decorator, seq<Outcome>))
    ensures |res.1| <= |attempts|
    ensures forall j :: 0 <= j < |res.1| - 1 ==> res.1[j].Returned?
    ensures |res.1| < |attempts| ==> |res.1| > 0 && !res.1[|res.1| - 1].Returned?
    decreases |attempts|
  {
    if attempts == [] then (d, [])
    else
      var step := Step(d, attempts[0]);
      if step.1.Returned? then
        var rest := Steps(step.0, attempts[1..]);
        (rest.0, [step.1] + rest.1)
      else (step.0, [step.1])
  }

  /** The loop script for those calls; nobody stops the loop, and the
      elapsed time does not matter to the dynamic rule. */
  function Script(outcomes: seq<Outcome>): (s: seq<Event>)
    ensures |s| == |outcomes|
  {
    seq(|outcomes|, j requires 0 <= j < |outcomes| => Invoke(outcomes[j], 0, false))
  }

  /** The loop configuration `func` starts: a dynamic looping call with
      `periodic_interval_max=max_sleep_time`, no initial delay, stopping on
      exceptions. */
  function RetryLoopConfig(d: Decorator): (cfg: LoopConfig)
    ensures cfg.rule == DynamicRule(d.maxSleepTime) && cfg.stopOnException
    ensures InitialSleep(cfg.initialDelay) == []
  {
    LoopConfig(DynamicRule(d.maxSleepTime), None, true)
  }

  /** `func`, the decorated function: run `_func` in a dynamic looping call
      and wait on its done event. Returns the decorator afterwards, the
      loop's run and what the caller's `wait()` yields. */
  function Decorated(d: Decorator, attempts: seq<Attempt>): (res: (Decorator, Run, Waited))
    ensures res.1.calls <= |attempts|
    ensures res.2 == Wait(res.1.end)
  {
    var (d', outcomes) := Steps(d, attempts);
    var run := RunLoop(RetryLoopConfig(d), Script(outcomes));
    (d', run, Wait(run.end))
  }
}

=== FILE: retry_proofs.dfy ===
/** Properties of `RetryDecorator`: the delays of a run of retries, how a
    decorated call ends, the cap on every delay, and counters that only
    ever grow. */
module RetryProofs {
  import opened Common
  import opened LoopingCall
  import opened LoopingCallProofs
  import opened Retry

  /** The decorator after `k` retries. */
  function Advance(d: Decorator, k: nat): Decorator
  {
    d.(retryCount := d.retryCount + k, sleepTime := d.sleepTime + k * d.incSleepTime)
  }

  /** What `_func` returns on `k` retries in a row: the `j`-th asks for the
      old sleep time plus `j + 1` increments. */
  function Delays(d: Decorator, k: nat): seq<Outcome>
  {
    seq(k, j requires 0 <= j < k => Returned(d.sleepTime + (j + 1) * d.incSleepTime))
  }

  /** The sleeps the loop takes for those retries, each capped at
      `max_sleep_time`. */
  function CappedDelays(d: Decorator, k: nat): seq<int>
  {
    seq(k, j requires 0 <= j < k => DynamicIdle(d.maxSleepTime, d.sleepTime + (j + 1) * d.incSleepTime))
  }

  /** The first `k` attempts fail with a listed exception and the decorator
      has a retry left for every one of them. */
  predicate RetriesFor(d: Decorator, attempts: seq<Attempt>, k: nat)
  {
    && k <= |attempts|
    && (forall j :: 0 <= j < k ==> attempts[j].Failed? && attempts[j].exc.cls in d.exceptions)
    && (k == 0 || d.maxRetryCount == -1 || d.retryCount + k <= d.maxRetryCount)
  }

  lemma DelaysCons(d: Decorator, k: nat)
    requires k > 0
    ensures Delays(d, k) == [Returned(d.sleepTime + d.incSleepTime)] + Delays(Advance(d, 1), k - 1)
  {
    var d1 := Advance(d, 1);
    forall j | 0 <= j < k - 1
      ensures Delays(d, k)[1..][j] == Delays(d1, k - 1)[j]
    {
      assert (j + 2) * d.incSleepTime == d.incSleepTime + (j + 1) * d.incSleepTime;
    }
  }

  lemma AdvanceTwice(d: Decorator, k: nat)
    requires k > 0
    ensures Advance(Advance(d, 1), k - 1) == Advance(d, k)
  {
    assert (k - 1) * d.incSleepTime + d.incSleepTime == k * d.incSleepTime;
  }

  /** One retry: `_func` asks for the next delay and the loop calls it
      again with the advanced decorator. */
  lemma StepsOneRetry(d: Decorator, attempts: seq<Attempt>)
    requires |attempts| > 0 && attempts[0].Failed? && attempts[0].exc.cls in d.exceptions && MayRetry(d)
    ensures var tail := Steps(Advance(d, 1), attempts[1..]);
            Steps(d, attempts) == (tail.0, [Returned(d.sleepTime + d.incSleepTime)] + tail.1)
  {
    var d1 := d.(retryCount := d.retryCount + 1, sleepTime := d.sleepTime + d.incSleepTime);
    assert Advance(d, 1) == d1;
    assert Step(d, attempts[0]) == (d1, Returned(d1.sleepTime));
  }

  lemma RetriesForTail(d: Decorator, attempts: seq<Attempt>, k: nat)
    requires k > 0 && RetriesFor(d, attempts, k)
    ensures MayRetry(d) && attempts[0].Failed? && attempts[0].exc.cls in d.exceptions
    ensures RetriesFor(Advance(d, 1), attempts[1..], k - 1)
  {
    assert forall j :: 0 <= j < k - 1 ==> attempts[1..][j] == attempts[j + 1];
  }

  /** Retries with room left: `_func` asks for the growing delays, and the
      rest of the call proceeds from the advanced decorator. */
  lemma {:induction false} StepsAfterRetries(d: Decorator, attempts: seq<Attempt>, k: nat)
    requires RetriesFor(d, attempts, k)
    ensures Steps(d, attempts).0 == Steps(Advance(d, k), attempts[k..]).0
    ensures Steps(d, attempts).1 == Delays(d, k) + Steps(Advance(d, k), attempts[k..]).1
    decreases k
  {
    if k > 0 {
      var d1 := Advance(d, 1);
      var last := Steps(Advance(d, k), attempts[k..]);
      RetriesForTail(d, attempts, k);
      StepsOneRetry(d, attempts);
      var tail := Steps(d1, attempts[1..]);
      var r := Returned(d.sleepTime + d.incSleepTime);
      assert Steps(d, attempts) == (tail.0, [r] + tail.1);
      StepsAfterRetries(d1, attempts[1..], k - 1);
      AdvanceTwice(d, k);
      assert attempts[1..][k - 1..] == attempts[k..];
      assert Steps(Advance(d1, k - 1), attempts[1..][k - 1..]) == last;
      assert tail.0 == last.0;
      var rest := Delays(d1, k - 1);
      assert tail.1 == rest + last.1;
      DelaysCons(d, k);
      assert Delays(d, k) == [r] + rest;
      assert [r] + (rest + last.1) == ([r] + rest) + last.1;
    }
  }

  lemma CappedIdles(d: Decorator, k: nat, outcomes: seq<Outcome>)
    requires k <= |outcomes| && outcomes[..k] == Delays(d, k)
    ensures NoEnd(true, Script(outcomes)[..k])
    ensures Idles(DynamicRule(d.maxSleepTime), true, Script(outcomes)[..k]) == CappedDelays(d, k)
  {
  }

  /** A decorated call that retries `k` times and then gets an answer that
      ends the loop: the loop sleeps the `k` capped, growing delays, calls
      the function `k + 1` times, and its done event carries the function's
      result or the exception it raised. */
  lemma RetryEndsAt(d: Decorator, attempts: seq<Attempt>, k: nat)
    requires RetriesFor(d, attempts, k) && k < |attempts|
    requires !Step(Advance(d, k), attempts[k]).1.Returned?
    ensures Decorated(d, attempts).0 == Advance(d, k)
    ensures Decorated(d, attempts).1 == Run(CappedDelays(d, k), k + 1,
              if attempts[k].Succeeded? then Sent(attempts[k].result) else SentException(attempts[k].exc))
  {
    StepsAfterRetries(d, attempts, k);
    var dk := Advance(d, k);
    var rest := attempts[k..];
    assert rest[0] == attempts[k];
    assert Steps(dk, rest) == (Step(dk, attempts[k]).0, [Step(dk, attempts[k]).1]);
    var outcomes := Steps(d, attempts).1;
    assert outcomes == Delays(d, k) + [Step(dk, attempts[k]).1];
    assert outcomes[..k] == Delays(d, k);
    CappedIdles(d, k, outcomes);
    RunLoopStopsAtFirstEnd(RetryLoopConfig(d), Script(outcomes), k);
  }

  /** A decorated call whose every attempt so far failed with a listed
      exception, with retries left: it is still sleeping and retrying, and
      a caller waiting on it is still blocked. */
  lemma RetryStillRunning(d: Decorator, attempts: seq<Attempt>)
    requires RetriesFor(d, attempts, |attempts|)
    ensures Decorated(d, attempts) == (Advance(d, |attempts|), Run(CappedDelays(d, |attempts|), |attempts|, Pending), Blocks)
  {
    var n := |attempts|;
    StepsAfterRetries(d, attempts, n);
    assert attempts[n..] == [];
    assert Steps(Advance(d, n), []) == (Advance(d, n), []);
    var outcomes := Steps(d, attempts).1;
    assert outcomes == Delays(d, n);
    var script := Script(outcomes);
    assert script[..n] == script;
    CappedIdles(d, n, outcomes);
    RunLoopWithoutEnd(RetryLoopConfig(d), script);
    assert RunLoop(RetryLoopConfig(d), script) == Run(CappedDelays(d, n), n, Pending);
  }

  /** On success the decorated call returns the function's result. */
  lemma SuccessReturnsResult(d: Decorator, attempts: seq<Attempt>, k: nat)
    requires RetriesFor(d, attempts, k) && k < |attempts|
    requires attempts[k].Succeeded?
    ensures Decorated(d, attempts).2 == Returns(attempts[k].result)
    ensures Decorated(d, attempts).1.calls == k + 1
  {
    RetryEndsAt(d, attempts, k);
  }

  /** An exception that is not listed propagates on the first attempt, with
      no retry, no sleep and no change to the counters; with no exception
      listed (the default) this is every exception. */
  lemma UnlistedPropagates(d: Decorator, attempts: seq<Attempt>)
    requires |attempts| > 0 && attempts[0].Failed?
    requires attempts[0].exc.cls !in d.exceptions
    ensures Decorated(d, attempts) == (d, Run([], 1, SentException(attempts[0].exc)), Raises(attempts[0].exc))
  {
    RetryEndsAt(d, attempts, 0);
  }

  /** The default decorator lists no exception, so it never retries: a
      failure of the first attempt reaches the caller at once, without any
      sleep and with the counters still at 0. */
  lemma DefaultNeverRetries(attempts: seq<Attempt>)
    requires |attempts| > 0 && attempts[0].Failed?
    ensures var (d', run, w) := Decorated(DefaultDecorator(), attempts);
            && d'.retryCount == 0 && d'.sleepTime == 0
            && run.sleeps == [] && run.calls == 1
            && w == Raises(attempts[0].exc)
  {
    UnlistedPropagates(DefaultDecorator(), attempts);
  }

  /** With a bound of `max_retry_count`, a listed exception is retried until
      the retry count reaches the bound; the next one is raised to the
      caller after exactly `max_retry_count - retry_count` sleeps. */
  lemma RetriesExhausted(d: Decorator, attempts: seq<Attempt>)
    requires d.maxRetryCount != -1 && d.retryCount <= d.maxRetryCount
    requires RetriesFor(d, attempts, d.maxRetryCount - d.retryCount)
    requires d.maxRetryCount - d.retryCount < |attempts|
    requires attempts[d.maxRetryCount - d.retryCount].Failed?
    requires attempts[d.maxRetryCount - d.retryCount].exc.cls in d.exceptions
    ensures var n := d.maxRetryCount - d.retryCount;
            && Decorated(d, attempts).2 == Raises(attempts[n].exc)
            && Decorated(d, attempts).1.calls == n + 1
            && |Decorated(d, attempts).1.sleeps| == n
            && Decorated(d, attempts).0.retryCount == d.maxRetryCount
  {
    RetryEndsAt(d, attempts, d.maxRetryCount - d.retryCount);
  }

  /** A fresh decorator asks for 1, 2, 3, ... increments of
      `inc_sleep_time`, each capped at `max_sleep_time`. */
  lemma FreshDelays(maxRetryCount: int, incSleepTime: int, maxSleepTime: Option<int>,
                    exceptions: set<ExcClass>, attempts: seq<Attempt>, k: nat)
    requires RetriesFor(NewDecorator(maxRetryCount, incSleepTime, maxSleepTime, exceptions), attempts, k)
    requires k < |attempts| && attempts[k].Succeeded?
    ensures var run := Decorated(NewDecorator(maxRetryCount, incSleepTime, maxSleepTime, exceptions), attempts).1;
            |run.sleeps| == k
            && forall j :: 0 <= j < k ==> run.sleeps[j] == DynamicIdle(maxSleepTime, (j + 1) * incSleepTime)
  {
    RetryEndsAt(NewDecorator(maxRetryCount, incSleepTime, maxSleepTime, exceptions), attempts, k);
  }

  /** Every delay between retries is at most `max_sleep_time`. */
  lemma DelaysCapped(d: Decorator, attempts: seq<Attempt>)
    requires d.maxSleepTime.Some?
    ensures forall j :: 0 <= j < |Decorated(d, attempts).1.sleeps| ==> Decorated(d, attempts).1.sleeps[j] <= d.maxSleepTime.value
  {
    RunLoopSleepBounds(RetryLoopConfig(d), Script(Steps(d, attempts).1));
  }

  /** The counters are never reset: a call only adds retries, each one
      adding `inc_sleep_time` to the sleep time, and the parameters stay. */
  lemma {:induction false} CountersNeverReset(d: Decorator, attempts: seq<Attempt>)
    ensures var d' := Steps(d, attempts).0;
            && d'.retryCount >= d.retryCount
            && d'.sleepTime == d.sleepTime + (d'.retryCount - d.retryCount) * d.incSleepTime
            && d' == d.(retryCount := d'.retryCount, sleepTime := d'.sleepTime)
    decreases |attempts|
  {
    if attempts != [] {
      var (d1, o) := Step(d, attempts[0]);
      if o.Returned? {
        CountersNeverReset(d1, attempts[1..]);
        var d' := Steps(d1, attempts[1..]).0;
        assert (d'.retryCount - d.retryCount) * d.incSleepTime
            == d.incSleepTime + (d'.retryCount - d1.retryCount) * d.incSleepTime;
      }
    }
  }

  /** With a bound, the retry count never passes it. */
  lemma {:induction false} RetryCountBounded(d: Decorator, attempts: seq<Attempt>)
    requires d.maxRetryCount != -1 && d.retryCount <= d.maxRetryCount
    ensures Steps(d, attempts).0.retryCount <= d.maxRetryCount
    decreases |attempts|
  {
    if attempts != [] {
      var (d1, o) := Step(d, attempts[0]);
      if o.Returned? {
        RetryCountBounded(d1, attempts[1..]);
      }
    }
  }

  /** Because the counters carry over, a decorator that used up its retries
      in one call raises the first listed exception of any later call at
      once, without a retry. */
  lemma ExhaustedStaysExhausted(d: Decorator, attempts: seq<Attempt>)
    requires d.maxRetryCount != -1 && d.retryCount >= d.maxRetryCount
    requires |attempts| > 0 && attempts[0].Failed?
    ensures Decorated(d, attempts) == (d, Run([], 1, SentException(attempts[0].exc)), Raises(attempts[0].exc))
  {
    RetryEndsAt(d, attempts, 0);
  }
}

=== FILE: thread_group.dfy ===
/** The bookkeeping of `oslo_service/threadgroup.py`: a group holds the
    threads it spawned and the timers it started, in order of addition, and
    stops or waits on them.

    Green threads are opaque. Each wrapper object gets an identity from the
    group's counter (Python compares wrappers by identity); `ident` is the
    green thread's own identity, the number the current-thread check
    compares. What stopping or waiting on a thread or timer does to it is
    scripted by an outcome function, and every operation that touches
    threads or timers returns the effects it performs, in order. */
module ThreadGroup {
  import opened Common
  import LoopingCall

  /** `Thread`: the wrapper of one green thread of the group. */
  datatype Thread = Thread(id: nat, ident: nat)

  /** A timer the group started: the wrapper's identity and the looping
      call behind it. */
  datatype Timer = Timer(id: nat, call: LoopingCall.Call)

  /** `ThreadGroup`: the pool size it was made with, its threads and timers
      in order of addition, and the next free identity. */
  datatype Group = Group(poolSize: nat, threads: seq<Thread>, timers: seq<Timer>, nextId: nat)

  /** The default `thread_pool_size`. */
  const DefaultPoolSize: nat := 10

  /** No wrapper appears twice, and every identity came from the counter. */
  predicate Valid(g: Group)
  {
    && (forall i, j :: 0 <= i < j < |g.threads| ==> g.threads[i].id != g.threads[j].id)
    && (forall i, j :: 0 <= i < j < |g.timers| ==> g.timers[i].id != g.timers[j].id)
    && (forall i :: 0 <= i < |g.threads| ==> g.threads[i].id < g.nextId)
    && (forall i :: 0 <= i < |g.timers| ==> g.timers[i].id < g.nextId)
  }

  /** `ThreadGroup.__init__`: an empty group. */
  function NewGroup(poolSize: nat): (g: Group)
    ensures g.threads == [] && g.timers == [] && g.poolSize == poolSize && Valid(g)
  {
    Group(poolSize, [], [], 0)
  }

  /** `ThreadGroup()` without arguments: an empty group with the default
      pool size. */
  function DefaultGroup(): (g: Group)
    ensures g.threads == [] && g.timers == [] && g.poolSize == DefaultPoolSize == 10 && Valid(g)
  {
    NewGroup(DefaultPoolSize)
  }

  // ---------------------------------------------------------------------
  // list.remove

  /** The position of the first occurrence of `x`. */
  function IndexOf<T(==)>(s: seq<T>, x: T): (i: nat)
    requires x in s
    ensures i < |s| && s[i] == x && x !in s[..i]
  {
    if s[0] == x then 0
    else
      assert s == [s[0]] + s[1..];
      var i := IndexOf(s[1..], x) + 1;
      assert s[..i] == [s[0]] + s[1..][..i - 1];
      i
  }

  /** Python's `list.remove`: drop the first occurrence of `x` and keep
      the other elements in their order. */
  function Remove<T(==)>(s: seq<T>, x: T): (r: seq<T>)
    requires x in s
    ensures exists i :: 0 <= i < |s| && s[i] == x && x !in s[..i] && r == s[..i] + s[i + 1..]
    ensures |r| == |s| - 1
    ensures multiset(r) == multiset(s) - multiset{x}
  {
    var i := IndexOf(s, x);
    assert s == s[..i] + [x] + s[i + 1..];
    s[..i] + s[i + 1..]
  }

  /** The identities of some threads, in order. */
  function ThreadIds(ts: seq<Thread>): (ids: seq<nat>)
    ensures |ids| == |ts|
    ensures forall i :: 0 <= i < |ts| ==> ids[i] == ts[i].id
    decreases |ts|
  {
    if ts == [] then [] else [ts[0].id] + ThreadIds(ts[1..])
  }

  /** The identities of some timers, in order. */
  function TimerIds(ts: seq<Timer>): (ids: seq<nat>)
    ensures |ids| == |ts|
    ensures forall i :: 0 <= i < |ts| ==> ids[i] == ts[i].id
    decreases |ts|
  {
    if ts == [] then [] else [ts[0].id] + TimerIds(ts[1..])
  }

  /** Dropping the thread at `i` keeps the group valid, and no other entry
      shares its identity. */
  lemma ThreadsDropValid(g: Group, i: nat)
    requires i < |g.threads|
    ensures var r := g.threads[..i] + g.threads[i + 1..];
            Valid(g) ==> Valid(g.(threads := r)) && forall k :: 0 <= k < |r| ==> r[k].id != g.threads[i].id
  {
    if Valid(g) {
      var s, r := g.threads, g.threads[..i] + g.threads[i + 1..];
      forall a | 0 <= a < |r| ensures r[a] == s[if a < i then a else a + 1] {}
      forall a, b | 0 <= a < b < |r| ensures r[a].id != r[b].id {
        var a', b' := if a < i then a else a + 1, if b < i then b else b + 1;
        assert r[a] == s[a'] && r[b] == s[b'] && a' < b';
      }
      forall a | 0 <= a < |r| ensures r[a].id != s[i].id && r[a].id < g.nextId {
        var a' := if a < i then a else a + 1;
        assert r[a] == s[a'] && a' != i;
      }
    }
  }

  /** Dropping the timer at `i` keeps the group valid, and no other entry
      shares its identity. */
  lemma TimersDropValid(g: Group, i: nat)
    requires i < |g.timers|
    ensures var r := g.timers[..i] + g.timers[i + 1..];
            Valid(g) ==> Valid(g.(timers := r)) && forall k :: 0 <= k < |r| ==> r[k].id != g.timers[i].id
  {
    if Valid(g) {
      var s, r := g.timers, g.timers[..i] + g.timers[i + 1..];
      forall a | 0 <= a < |r| ensures r[a] == s[if a < i then a else a + 1] {}
      forall a, b | 0 <= a < b < |r| ensures r[a].id != r[b].id {
        var a', b' := if a < i then a else a + 1, if b < i then b else b + 1;
        assert r[a] == s[a'] && r[b] == s[b'] && a' < b';
      }
      forall a | 0 <= a < |r| ensures r[a].id != s[i].id && r[a].id < g.nextId {
        var a' := if a < i then a else a + 1;
        assert r[a] == s[a'] && a' != i;
      }
    }
  }

  // ---------------------------------------------------------------------
  // Adding and removing

  /** `add_thread`: the pool spawns a green thread with identity `ident`,
      which is wrapped, appended to `threads` and returned. */
  function AddThread(g: Group, ident: nat): (res: (Group, Thread))
    ensures res.0.threads == g.threads + [res.1]
    ensures res.0.timers == g.timers && res.0.poolSize == g.poolSize
    ensures res.1.ident == ident
    ensures Valid(g) ==> Valid(res.0) && res.1 !in g.threads
  {
    var th := Thread(g.nextId, ident);
    (g.(threads := g.threads + [th], nextId := g.nextId + 1), th)
  }

  /** `thread_done`, which the thread's completion link calls: remove that
      thread, keeping the others in order; `ValueError` when it is not in
      the group. A wrapper never changes after `add_thread`, so comparing
      records is comparing the wrapper's identity. */
  function ThreadDone(g: Group, th: Thread): (r: Result<Group>)
    ensures r.Err? <==> th !in g.threads
    ensures r.Err? ==> r.error == ValueError
    ensures r.Ok? ==> exists i :: 0 <= i < |g.threads| && g.threads[i] == th && th !in g.threads[..i]
                                 && r.value.threads == g.threads[..i] + g.threads[i + 1..]
    ensures r.Ok? ==> r.value.timers == g.timers && r.value.nextId == g.nextId && r.value.poolSize == g.poolSize
    ensures r.Ok? && Valid(g) ==> Valid(r.value) && th !in r.value.threads
  {
    if th !in g.threads then Err(ValueError)
    else
      var i := IndexOf(g.threads, th);
      ThreadsDropValid(g, i);
      Ok(g.(threads := Remove(g.threads, th)))
  }

  /** `add_timer`: a fixed-interval looping call, started on the green
      thread `handle` with the default `stop_on_exception`, appended to
      `timers` and returned. */
  function AddTimer(g: Group, interval: int, initialDelay: Option<int>, handle: nat): (res: (Group, Timer))
    ensures res.0.timers == g.timers + [res.1]
    ensures res.0.threads == g.threads && res.0.poolSize == g.poolSize
    ensures res.1.call.running && res.1.call.thread == Some(handle)
    ensures res.1.call.config == Some(LoopingCall.LoopConfig(LoopingCall.FixedRule(interval), initialDelay, true))
    ensures Valid(g) ==> Valid(res.0) && res.1 !in g.timers
  {
    var started := LoopingCall.StartFixed(LoopingCall.NewCall(LoopingCall.FixedKind), interval, initialDelay, true, handle);
    var timer := Timer(g.nextId, started.value);
    (g.(timers := g.timers + [timer], nextId := g.nextId + 1), timer)
  }

  /** `add_dynamic_timer`: the same with a dynamic looping call capped by
      `periodic_interval_max`. */
  function AddDynamicTimer(g: Group, initialDelay: Option<int>, intervalMax: Option<int>, handle: nat): (res: (Group, Timer))
    ensures res.0.timers == g.timers + [res.1]
    ensures res.0.threads == g.threads && res.0.poolSize == g.poolSize
    ensures res.1.call.running && res.1.call.thread == Some(handle)
    ensures res.1.call.config == Some(LoopingCall.LoopConfig(LoopingCall.DynamicRule(intervalMax), initialDelay, true))
    ensures Valid(g) ==> Valid(res.0) && res.1 !in g.timers
  {
    var started := LoopingCall.StartDynamic(LoopingCall.NewCall(LoopingCall.DynamicKind), initialDelay, intervalMax, true, handle);
    var timer := Timer(g.nextId, started.value);
    (g.(timers := g.timers + [timer], nextId := g.nextId + 1), timer)
  }

  /** `timer_done`: remove that timer, keeping the others in order;
      `ValueError` when it is not in the group. The group holds the very
      looping-call object the caller passes, which `stop` and `_on_done`
      change in place, so the timer is found by its identity alone and the
      call state it carries does not matter. */
  function TimerDone(g: Group, timer: Timer): (r: Result<Group>)
    ensures r.Err? <==> forall k :: 0 <= k < |g.timers| ==> g.timers[k].id != timer.id
    ensures r.Err? ==> r.error == ValueError
    ensures r.Ok? ==> exists i :: 0 <= i < |g.timers| && g.timers[i].id == timer.id
                                 && (forall k :: 0 <= k < i ==> g.timers[k].id != timer.id)
                                 && r.value.timers == g.timers[..i] + g.timers[i + 1..]
    ensures r.Ok? ==> r.value.threads == g.threads && r.value.nextId == g.nextId && r.value.poolSize == g.poolSize
    ensures r.Ok? && Valid(g) ==> Valid(r.value) && forall k :: 0 <= k < |r.value.timers| ==> r.value.timers[k].id != timer.id
  {
    FirstTimerWithId(g.timers, timer.id);
    if timer.id !in TimerIds(g.timers) then Err(ValueError)
    else
      var i := IndexOf(TimerIds(g.timers), timer.id);
      TimersDropValid(g, i);
      Ok(g.(timers := g.timers[..i] + g.timers[i + 1..]))
  }

  /** A timer with identity `id` is present exactly when `id` is among the
      identities, and then `IndexOf` finds the first one. */
  lemma FirstTimerWithId(ts: seq<Timer>, id: nat)
    ensures id !in TimerIds(ts) <==> forall k :: 0 <= k < |ts| ==> ts[k].id != id
    ensures id in TimerIds(ts) ==>
              var i := IndexOf(TimerIds(ts), id);
              ts[i].id == id && forall k :: 0 <= k < i ==> ts[k].id != id
  {
    var ids := TimerIds(ts);
    if id in ids {
      var i := IndexOf(ids, id);
      assert forall k :: 0 <= k < i ==> ids[..i][k] == ts[k].id;
    }
  }

  // ---------------------------------------------------------------------
  // Stopping and waiting

  /** `Thread.stop` kills the green thread; `Thread.wait` joins it. */
  datatype Action = Kill | Join

  /** How an action on a thread or timer returned: normally, with
      `GreenletExit`, or with any other exception. */
  datatype ActionOutcome = Completed | GreenletExit | Failure

  /** What the group does to its threads and timers, in order. The `Failed`
      effects are the logged errors. */
  datatype Effect =
    | TimerStopped(timer: nat)
    | TimerWaited(timer: nat)
    | TimerWaitFailed(timer: nat)
    | ThreadActed(action: Action, thread: nat)
    | ThreadFailed(action: Action, thread: nat)

  predicate IsThreadEffect(e: Effect, action: Action)
  {
    (e.ThreadActed? || e.ThreadFailed?) && e.action == action
  }

  /** `_perform_action_on_threads` over `snapshot`, the copy of `threads`
      taken when the call starts: the thread whose `ident` is the caller's
      is skipped; every other one gets the action, and an outcome other than
      a normal return or `GreenletExit` is logged for that thread alone. */
  function PerformActionOnThreads(snapshot: seq<Thread>, current: nat, action: Action,
                                  outcome: Thread -> ActionOutcome): (effects: seq<Effect>)
    ensures forall i :: 0 <= i < |effects| ==> IsThreadEffect(effects[i], action)
    ensures |effects| <= 2 * |snapshot|
    ensures forall x :: x in snapshot && x.ident != current ==> ThreadActed(action, x.id) in effects
    decreases |snapshot|
  {
    if snapshot == [] then []
    else
      var x := snapshot[0];
      var here :=
        if x.ident == current then []
        else if outcome(x) == Failure then [ThreadActed(action, x.id), ThreadFailed(action, x.id)]
        else [ThreadActed(action, x.id)];
      here + PerformActionOnThreads(snapshot[1..], current, action, outcome)
  }

  /** `_stop_threads`: kill every other thread. */
  function StopThreads(g: Group, current: nat, outcome: Thread -> ActionOutcome): (effects: seq<Effect>)
    ensures forall i :: 0 <= i < |effects| ==> IsThreadEffect(effects[i], Kill)
    ensures forall x :: x in g.threads && x.ident != current ==> ThreadActed(Kill, x.id) in effects
  {
    PerformActionOnThreads(g.threads, current, Kill, outcome)
  }

  /** `stop_timers`: stop every timer, in order, then forget them all. */
  function StopTimers(g: Group): (res: (Group, seq<Effect>))
    ensures res.0.timers == [] && res.0.threads == g.threads && res.0.nextId == g.nextId
    ensures res.0 == g.(timers := [])
    ensures |res.1| == |g.timers|
    ensures forall i :: 0 <= i < |g.timers| ==> res.1[i] == TimerStopped(g.timers[i].id)
    ensures Valid(g) ==> Valid(res.0)
  {
    (g.(timers := []), seq(|g.timers|, i requires 0 <= i < |g.timers| => TimerStopped(g.timers[i].id)))
  }

  /** The first loop of `wait`: wait on each timer in order, logging any
      error other than `GreenletExit` and going on. */
  function WaitTimers(timers: seq<Timer>, outcome: Timer -> ActionOutcome): (effects: seq<Effect>)
    ensures forall i :: 0 <= i < |effects| ==> effects[i].TimerWaited? || effects[i].TimerWaitFailed?
    ensures |timers| <= |effects| <= 2 * |timers|
    decreases |timers|
  {
    if timers == [] then []
    else
      var t := timers[0];
      var here := if outcome(t) == Failure then [TimerWaited(t.id), TimerWaitFailed(t.id)] else [TimerWaited(t.id)];
      here + WaitTimers(timers[1..], outcome)
  }

  /** `wait`: every timer, then every thread other than the caller's. */
  function Wait(g: Group, current: nat, timerOutcome: Timer -> ActionOutcome,
                threadOutcome: Thread -> ActionOutcome): (effects: seq<Effect>)
    ensures |WaitTimers(g.timers, timerOutcome)| <= |effects|
    ensures forall i :: 0 <= i < |effects| ==>
              (i < |WaitTimers(g.timers, timerOutcome)| <==> effects[i].TimerWaited? || effects[i].TimerWaitFailed?)
  {
    WaitTimers(g.timers, timerOutcome) + PerformActionOnThreads(g.threads, current, Join, threadOutcome)
  }

  /** `stop(graceful)`: stop the timers first; then wait on every other
      thread when graceful, or kill every other thread when not. */
  function Stop(g: Group, graceful: bool, current: nat, timerOutcome: Timer -> ActionOutcome,
                threadOutcome: Thread -> ActionOutcome): (res: (Group, seq<Effect>))
    ensures res.0.timers == [] && res.0.threads == g.threads
    ensures res.0 == g.(timers := []) && (Valid(g) ==> Valid(res.0))
    ensures |g.timers| <= |res.1|
    ensures forall i :: 0 <= i < |res.1| ==> (res.1[i].TimerStopped? <==> i < |g.timers|)
    ensures graceful ==> forall i :: 0 <= i < |res.1| ==> !(res.1[i].ThreadActed? && res.1[i].action == Kill)
    ensures !graceful ==> forall i :: 0 <= i < |res.1| ==> !(res.1[i].ThreadActed? && res.1[i].action == Join)
  {
    var (g1, stopped) := StopTimers(g);
    var rest :=
      if graceful then Wait(g1, current, timerOutcome, threadOutcome)
      else StopThreads(g1, current, threadOutcome);
    (g1, stopped + rest)
  }
}

=== FILE: thread_group_proofs.dfy ===
/** Properties of the thread group: which threads an action reaches and in
    what order, that each is reached exactly once, that `stop` deals with
    timers before threads and never mixes killing with waiting, and that
    adding then finishing a thread or timer leaves the lists as they were. */
module ThreadGroupProofs {
  import opened Common
  import opened ThreadGroup

  /** The threads of a snapshot other than the caller's, in order. */
  function Others(ts: seq<Thread>, current: nat): (r: seq<Thread>)
    decreases |ts|
  {
    if ts == [] then []
    else (if ts[0].ident == current then [] else [ts[0]]) + Others(ts[1..], current)
  }

  /** `Others` keeps exactly the threads of the snapshot other than the
      caller's. */
  lemma {:induction false} OthersMembers(ts: seq<Thread>, current: nat)
    ensures forall y :: y in Others(ts, current) <==> y in ts && y.ident != current
    decreases |ts|
  {
    if ts != [] {
      var head := if ts[0].ident == current then [] else [ts[0]];
      assert Others(ts, current) == head + Others(ts[1..], current);
      assert ts == [ts[0]] + ts[1..];
      OthersMembers(ts[1..], current);
    }
  }

  /** Those of them whose action fails with an error other than
      `GreenletExit`. */
  function Failing(ts: seq<Thread>, current: nat, outcome: Thread -> ActionOutcome): (r: seq<Thread>)
    ensures forall y :: y in r ==> y in ts && y.ident != current && outcome(y) == Failure
    ensures forall y :: y in ts && y.ident != current && outcome(y) == Failure ==> y in r
    decreases |ts|
  {
    if ts == [] then []
    else (if ts[0].ident != current && outcome(ts[0]) == Failure then [ts[0]] else [])
         + Failing(ts[1..], current, outcome)
  }

  predicate DistinctIds(ts: seq<Thread>)
  {
    forall i, j :: 0 <= i < j < |ts| ==> ts[i].id != ts[j].id
  }

  /** The threads an effect trace acts on, in order. */
  function Acted(effects: seq<Effect>): seq<nat>
    decreases |effects|
  {
    if effects == [] then []
    else (if effects[0].ThreadActed? then [effects[0].thread] else []) + Acted(effects[1..])
  }

  /** The threads an effect trace logs an error for, in order. */
  function Logged(effects: seq<Effect>): seq<nat>
    decreases |effects|
  {
    if effects == [] then []
    else (if effects[0].ThreadFailed? then [effects[0].thread] else []) + Logged(effects[1..])
  }

  lemma {:induction false} ActedAppend(a: seq<Effect>, b: seq<Effect>)
    ensures Acted(a + b) == Acted(a) + Acted(b)
    decreases |a|
  {
    if a == [] {
      assert a + b == b;
    } else {
      var head := if a[0].ThreadActed? then [a[0].thread] else [];
      assert (a + b)[0] == a[0];
      assert (a + b)[1..] == a[1..] + b;
      assert Acted(a + b) == head + Acted(a[1..] + b);
      ActedAppend(a[1..], b);
      assert Acted(a) == head + Acted(a[1..]);
    }
  }

  lemma {:induction false} LoggedAppend(a: seq<Effect>, b: seq<Effect>)
    ensures Logged(a + b) == Logged(a) + Logged(b)
    decreases |a|
  {
    if a == [] {
      assert a + b == b;
    } else {
      var head := if a[0].ThreadFailed? then [a[0].thread] else [];
      assert (a + b)[0] == a[0];
      assert (a + b)[1..] == a[1..] + b;
      assert Logged(a + b) == head + Logged(a[1..] + b);
      LoggedAppend(a[1..], b);
      assert Logged(a) == head + Logged(a[1..]);
    }
  }

  /** `_perform_action_on_threads` acts on exactly the threads of the
      snapshot other than the caller's, in list order, and logs an error
      for exactly those whose action failed with something other than
      `GreenletExit`; the remaining threads are processed all the same. */
  lemma {:induction false} ActsOnOthersInOrder(ts: seq<Thread>, current: nat, action: Action,
                                               outcome: Thread -> ActionOutcome)
    ensures Acted(PerformActionOnThreads(ts, current, action, outcome)) == ThreadIds(Others(ts, current))
    ensures Logged(PerformActionOnThreads(ts, current, action, outcome)) == ThreadIds(Failing(ts, current, outcome))
    decreases |ts|
  {
    if ts != [] {
      var x := ts[0];
      var here :=
        if x.ident == current then []
        else if outcome(x) == Failure then [ThreadActed(action, x.id), ThreadFailed(action, x.id)]
        else [ThreadActed(action, x.id)];
      var rest := PerformActionOnThreads(ts[1..], current, action, outcome);
      assert PerformActionOnThreads(ts, current, action, outcome) == here + rest;
      ActedAppend(here, rest);
      LoggedAppend(here, rest);
      ActsOnOthersInOrder(ts[1..], current, action, outcome);
      assert Acted(here) == (if x.ident == current then [] else [x.id]);
      assert Logged(here) == (if x.ident != current && outcome(x) == Failure then [x.id] else []);
      assert ThreadIds(Others(ts, current)) == ThreadIds(if x.ident == current then [] else [x]) + ThreadIds(Others(ts[1..], current))
        by { ThreadIdsAppend(if x.ident == current then [] else [x], Others(ts[1..], current)); }
      assert ThreadIds(Failing(ts, current, outcome))
          == ThreadIds(if x.ident != current && outcome(x) == Failure then [x] else []) + ThreadIds(Failing(ts[1..], current, outcome))
        by { ThreadIdsAppend(if x.ident != current && outcome(x) == Failure then [x] else [], Failing(ts[1..], current, outcome)); }
    }
  }

  lemma ThreadIdsAppend(a: seq<Thread>, b: seq<Thread>)
    ensures ThreadIds(a + b) == ThreadIds(a) + ThreadIds(b)
  {
  }

  lemma {:induction false} OthersSubMultiset(ts: seq<Thread>, current: nat)
    ensures multiset(ThreadIds(Others(ts, current))) <= multiset(ThreadIds(ts))
    decreases |ts|
  {
    if ts != [] {
      var head := if ts[0].ident == current then [] else [ts[0]];
      ThreadIdsAppend(head, Others(ts[1..], current));
      ThreadIdsAppend([ts[0]], ts[1..]);
      assert ts == [ts[0]] + ts[1..];
      OthersSubMultiset(ts[1..], current);
    }
  }

  lemma {:induction false} OthersCount(ts: seq<Thread>, current: nat, x: Thread)
    requires DistinctIds(ts) && x in ts
    ensures multiset(ThreadIds(Others(ts, current)))[x.id] == if x.ident == current then 0 else 1
    decreases |ts|
  {
    var head := if ts[0].ident == current then [] else [ts[0]];
    var tail := Others(ts[1..], current);
    assert Others(ts, current) == head + tail;
    ThreadIdsAppend(head, tail);
    assert multiset(ThreadIds(Others(ts, current))) == multiset(ThreadIds(head)) + multiset(ThreadIds(tail));
    assert ThreadIds(head) == if ts[0].ident == current then [] else [ts[0].id];
    assert DistinctIds(ts[1..]) by {
      forall i, j | 0 <= i < j < |ts[1..]| ensures ts[1..][i].id != ts[1..][j].id {
        assert ts[1..][i] == ts[i + 1] && ts[1..][j] == ts[j + 1];
      }
    }
    if x == ts[0] {
      assert x.id !in ThreadIds(ts[1..]) by {
        forall i | 0 <= i < |ts[1..]| ensures ThreadIds(ts[1..])[i] != x.id {
          assert ts[1..][i] == ts[i + 1];
        }
      }
      OthersSubMultiset(ts[1..], current);
      assert multiset(ThreadIds(tail))[x.id] == 0;
      assert multiset(ThreadIds(head))[x.id] == if x.ident == current then 0 else 1;
    } else {
      var j :| 0 <= j < |ts| && ts[j] == x;
      assert j > 0;
      assert ts[0].id != x.id;
      assert multiset(ThreadIds(head))[x.id] == 0;
      assert ts[1..][j - 1] == x;
      OthersCount(ts[1..], current, x);
    }
  }

  /** With distinct wrappers, every thread of the snapshot other than the
      caller's gets the action exactly once, and the caller's never does:
      a thread never stops or waits on itself. */
  lemma EachOtherThreadOnce(ts: seq<Thread>, current: nat, action: Action, outcome: Thread -> ActionOutcome)
    requires DistinctIds(ts)
    ensures forall x :: x in ts ==>
              multiset(Acted(PerformActionOnThreads(ts, current, action, outcome)))[x.id]
              == if x.ident == current then 0 else 1
  {
    ActsOnOthersInOrder(ts, current, action, outcome);
    forall x | x in ts
      ensures multiset(Acted(PerformActionOnThreads(ts, current, action, outcome)))[x.id]
              == if x.ident == current then 0 else 1
    {
      OthersCount(ts, current, x);
    }
  }

  /** `stop` stops every timer, in order, before it touches any thread;
      then it waits on the threads when graceful (and, the timer list being
      already empty, on no timer) or kills them when not. */
  lemma StopTimersFirst(g: Group, graceful: bool, current: nat, timerOutcome: Timer -> ActionOutcome,
                        threadOutcome: Thread -> ActionOutcome)
    ensures var effects := Stop(g, graceful, current, timerOutcome, threadOutcome).1;
            && effects[..|g.timers|] == StopTimers(g).1
            && effects[|g.timers|..]
               == PerformActionOnThreads(g.threads, current, if graceful then Join else Kill, threadOutcome)
  {
    var (g1, stopped) := StopTimers(g);
    assert g1.timers == [] && g1.threads == g.threads;
    assert WaitTimers(g1.timers, timerOutcome) == [];
    var action := if graceful then Join else Kill;
    var rest := PerformActionOnThreads(g.threads, current, action, threadOutcome);
    if graceful {
      assert Wait(g1, current, timerOutcome, threadOutcome) == rest;
    } else {
      assert StopThreads(g1, current, threadOutcome) == rest;
    }
    var effects := Stop(g, graceful, current, timerOutcome, threadOutcome).1;
    assert effects == stopped + rest;
    assert effects[..|g.timers|] == stopped;
  }

  /** A graceful stop waits on every other thread and kills none; an
      ungraceful stop kills every other thread and waits on none. */
  lemma StopActsOnOthers(g: Group, graceful: bool, current: nat, timerOutcome: Timer -> ActionOutcome,
                         threadOutcome: Thread -> ActionOutcome)
    ensures var effects := Stop(g, graceful, current, timerOutcome, threadOutcome).1;
            && Acted(effects) == ThreadIds(Others(g.threads, current))
            && forall i :: |g.timers| <= i < |effects| ==>
                 IsThreadEffect(effects[i], if graceful then Join else Kill)
  {
    StopTimersFirst(g, graceful, current, timerOutcome, threadOutcome);
    var effects := Stop(g, graceful, current, timerOutcome, threadOutcome).1;
    var n := |g.timers|;
    assert effects == effects[..n] + effects[n..];
    ActedAppend(effects[..n], effects[n..]);
    NoThreadActedAmongTimerStops(StopTimers(g).1);
    ActsOnOthersInOrder(g.threads, current, if graceful then Join else Kill, threadOutcome);
  }

  lemma {:induction false} NoThreadActedAmongTimerStops(effects: seq<Effect>)
    requires forall i :: 0 <= i < |effects| ==> effects[i].TimerStopped?
    ensures Acted(effects) == []
    decreases |effects|
  {
    if effects != [] {
      NoThreadActedAmongTimerStops(effects[1..]);
    }
  }

  /** The timers an effect trace waits on, in order. */
  function WaitedOn(effects: seq<Effect>): seq<nat>
    decreases |effects|
  {
    if effects == [] then []
    else (if effects[0].TimerWaited? then [effects[0].timer] else []) + WaitedOn(effects[1..])
  }

  /** The timers an effect trace logs a failed wait for, in order. */
  function WaitLogged(effects: seq<Effect>): seq<nat>
    decreases |effects|
  {
    if effects == [] then []
    else (if effects[0].TimerWaitFailed? then [effects[0].timer] else []) + WaitLogged(effects[1..])
  }

  /** The timers whose wait fails with an error other than `GreenletExit`. */
  function FailingTimers(ts: seq<Timer>, outcome: Timer -> ActionOutcome): (r: seq<Timer>)
    ensures forall t :: t in r ==> t in ts && outcome(t) == Failure
    ensures forall t :: t in ts && outcome(t) == Failure ==> t in r
    decreases |ts|
  {
    if ts == [] then []
    else (if outcome(ts[0]) == Failure then [ts[0]] else []) + FailingTimers(ts[1..], outcome)
  }

  lemma {:induction false} WaitedOnAppend(a: seq<Effect>, b: seq<Effect>)
    ensures WaitedOn(a + b) == WaitedOn(a) + WaitedOn(b)
    decreases |a|
  {
    if a == [] {
      assert a + b == b;
    } else {
      var head := if a[0].TimerWaited? then [a[0].timer] else [];
      assert (a + b)[0] == a[0];
      assert (a + b)[1..] == a[1..] + b;
      assert WaitedOn(a + b) == head + WaitedOn(a[1..] + b);
      WaitedOnAppend(a[1..], b);
      assert WaitedOn(a) == head + WaitedOn(a[1..]);
    }
  }

  lemma {:induction false} WaitLoggedAppend(a: seq<Effect>, b: seq<Effect>)
    ensures WaitLogged(a + b) == WaitLogged(a) + WaitLogged(b)
    decreases |a|
  {
    if a == [] {
      assert a + b == b;
    } else {
      var head := if a[0].TimerWaitFailed? then [a[0].timer] else [];
      assert (a + b)[0] == a[0];
      assert (a + b)[1..] == a[1..] + b;
      assert WaitLogged(a + b) == head + WaitLogged(a[1..] + b);
      WaitLoggedAppend(a[1..], b);
      assert WaitLogged(a) == head + WaitLogged(a[1..]);
    }
  }

  lemma TimerIdsAppend(a: seq<Timer>, b: seq<Timer>)
    ensures TimerIds(a + b) == TimerIds(a) + TimerIds(b)
  {
  }

  /** The first loop of `wait` waits on the timers exactly in list order,
      and logs a failed wait for exactly the timers whose wait failed with
      something other than `GreenletExit`, in the same order; a failure
      does not stop the loop. */
  lemma {:induction false} WaitTimersInOrder(timers: seq<Timer>, outcome: Timer -> ActionOutcome)
    ensures WaitedOn(WaitTimers(timers, outcome)) == TimerIds(timers)
    ensures WaitLogged(WaitTimers(timers, outcome)) == TimerIds(FailingTimers(timers, outcome))
    decreases |timers|
  {
    if timers != [] {
      var t := timers[0];
      var here := if outcome(t) == Failure then [TimerWaited(t.id), TimerWaitFailed(t.id)] else [TimerWaited(t.id)];
      var rest := WaitTimers(timers[1..], outcome);
      assert WaitTimers(timers, outcome) == here + rest;
      WaitedOnAppend(here, rest);
      WaitLoggedAppend(here, rest);
      WaitTimersInOrder(timers[1..], outcome);
      assert WaitedOn(here) == [t.id];
      assert WaitLogged(here) == (if outcome(t) == Failure then [t.id] else []);
      assert TimerIds(timers) == [t.id] + TimerIds(timers[1..]);
      var first := if outcome(t) == Failure then [t] else [];
      TimerIdsAppend(first, FailingTimers(timers[1..], outcome));
    }
  }

  /** Every timer is waited on, every failed wait is logged, and only failed
      waits are logged. */
  lemma WaitTimersLogsFailures(timers: seq<Timer>, outcome: Timer -> ActionOutcome)
    ensures forall i :: 0 <= i < |timers| ==> TimerWaited(timers[i].id) in WaitTimers(timers, outcome)
    ensures forall t :: t in timers && outcome(t) == Failure ==> TimerWaitFailed(t.id) in WaitTimers(timers, outcome)
    ensures forall e :: e in WaitTimers(timers, outcome) && e.TimerWaitFailed? ==>
              exists t :: t in timers && t.id == e.timer && outcome(t) == Failure
  {
    var effects := WaitTimers(timers, outcome);
    WaitTimersInOrder(timers, outcome);
    forall i | 0 <= i < |timers| ensures TimerWaited(timers[i].id) in effects {
      WaitedOnMember(effects, timers[i].id);
    }
    forall t | t in timers && outcome(t) == Failure ensures TimerWaitFailed(t.id) in effects {
      var f := FailingTimers(timers, outcome);
      var j :| 0 <= j < |f| && f[j] == t;
      assert TimerIds(f)[j] == t.id;
      WaitLoggedMember(effects, t.id);
    }
    forall e | e in effects && e.TimerWaitFailed?
      ensures exists t :: t in timers && t.id == e.timer && outcome(t) == Failure
    {
      WaitLoggedComplete(effects, e);
      var f := FailingTimers(timers, outcome);
      var j :| 0 <= j < |TimerIds(f)| && TimerIds(f)[j] == e.timer;
      assert f[j] in timers && f[j].id == e.timer && outcome(f[j]) == Failure;
    }
  }

  lemma {:induction false} WaitedOnMember(effects: seq<Effect>, id: nat)
    requires id in WaitedOn(effects)
    ensures TimerWaited(id) in effects
    decreases |effects|
  {
    if effects[0].TimerWaited? && effects[0].timer == id {
    } else {
      WaitedOnMember(effects[1..], id);
    }
  }

  lemma {:induction false} WaitLoggedMember(effects: seq<Effect>, id: nat)
    requires id in WaitLogged(effects)
    ensures TimerWaitFailed(id) in effects
    decreases |effects|
  {
    if effects[0].TimerWaitFailed? && effects[0].timer == id {
    } else {
      WaitLoggedMember(effects[1..], id);
    }
  }

  lemma {:induction false} WaitLoggedComplete(effects: seq<Effect>, e: Effect)
    requires e in effects && e.TimerWaitFailed?
    ensures e.timer in WaitLogged(effects)
    decreases |effects|
  {
    if effects[0] != e {
      WaitLoggedComplete(effects[1..], e);
    }
  }

  /** `add_thread` then the thread's completion link leaves the thread list
      as it was. */
  lemma AddThreadThenDone(g: Group, ident: nat)
    requires Valid(g)
    ensures var (g', th) := AddThread(g, ident);
            ThreadDone(g', th) == Ok(g.(nextId := g.nextId + 1))
  {
    var (g', th) := AddThread(g, ident);
    var i := IndexOf(g'.threads, th);
    assert forall k :: 0 <= k < |g.threads| ==> g'.threads[k] == g.threads[k] != th;
    assert i == |g.threads|;
    assert g'.threads[..i] == g.threads;
    assert g'.threads[i + 1..] == [];
    assert Remove(g'.threads, th) == g.threads;
  }

  /** `add_timer` then `timer_done` on that timer leaves the timer list as
      it was, whatever the looping call has been through meanwhile (for
      example a `stop()` or its `_on_done`). */
  lemma AddTimerThenDone(g: Group, interval: int, initialDelay: Option<int>, handle: nat, now: LoopingCall.Call)
    requires Valid(g)
    ensures var (g', timer) := AddTimer(g, interval, initialDelay, handle);
            TimerDone(g', timer.(call := now)) == Ok(g.(nextId := g.nextId + 1))
  {
    var (g', timer) := AddTimer(g, interval, initialDelay, handle);
    var g1 := g.(nextId := g.nextId + 1);
    assert g' == g1.(timers := g.timers + [timer]);
    DoneOfLastTimer(g1, timer, now);
  }

  /** `timer_done` on the last timer, whose identity no other timer has,
      drops exactly that one. */
  lemma DoneOfLastTimer(g: Group, t: Timer, now: LoopingCall.Call)
    requires forall k :: 0 <= k < |g.timers| ==> g.timers[k].id != t.id
    ensures TimerDone(g.(timers := g.timers + [t]), t.(call := now)) == Ok(g)
  {
    var ts := g.timers + [t];
    var i := LastIdFound(g.timers, t);
    assert TimerDone(g.(timers := ts), t.(call := now)) == Ok(g.(timers := ts[..i] + ts[i + 1..]));
  }

  /** In `ts + [t]`, where no other timer has `t`'s identity, the first
      timer with that identity is the last one, and dropping it gives `ts`. */
  lemma LastIdFound(ts: seq<Timer>, t: Timer) returns (i: nat)
    requires forall k :: 0 <= k < |ts| ==> ts[k].id != t.id
    ensures t.id in TimerIds(ts + [t])
    ensures i == IndexOf(TimerIds(ts + [t]), t.id) == |ts|
    ensures (ts + [t])[..i] + (ts + [t])[i + 1..] == ts
  {
    var all := ts + [t];
    var n := |ts|;
    assert TimerIds(all)[n] == t.id;
    assert forall k :: 0 <= k < n ==> TimerIds(all)[k] == ts[k].id;
    i := IndexOf(TimerIds(all), t.id);
    assert all[..n] == ts && all[n + 1..] == [];
  }

  /** A service whose one task runs in its group, stopped from elsewhere:
      a graceful stop only waits for that task, so it can finish; an
      ungraceful stop kills it. */
  lemma GracefulStopLetsTaskFinish(poolSize: nat, ident: nat, current: nat,
                                   timerOutcome: Timer -> ActionOutcome, threadOutcome: Thread -> ActionOutcome)
    requires ident != current
    ensures var (g, task) := AddThread(NewGroup(poolSize), ident);
            && Stop(g, true, current, timerOutcome, threadOutcome).1[0] == ThreadActed(Join, task.id)
            && Stop(g, false, current, timerOutcome, threadOutcome).1[0] == ThreadActed(Kill, task.id)
            && Acted(Stop(g, true, current, timerOutcome, threadOutcome).1) == [task.id]
            && Acted(Stop(g, false, current, timerOutcome, threadOutcome).1) == [task.id]
  {
    var (g, task) := AddThread(NewGroup(poolSize), ident);
    StopActsOnOthers(g, true, current, timerOutcome, threadOutcome);
    StopActsOnOthers(g, false, current, timerOutcome, threadOutcome);
    assert g.threads == [task];
    assert Others(g.threads, current) == [task];
  }
}
